=== FILE: README.md ===
# Timesheet core of `heures-production`

This project models the computational core of `script.js`, the single-page timesheet application that records shifts and absences per employee:

- **The shift calculator** (`calculateHours`). It takes a shift given as a date, a start and an end time, and a break in minutes. It splits the shift into normal hours, night hours (22:00–03:00) and a compensation bonus: 0.1 hour per hour worked between 22:00 and 05:00. It also gives the total.
- **The working-day counter** (`calculateWorkingDays`).
- **The month's view of absences** (`getMonthAbsences`). This is the stored one-off absences plus the weekly recurring rules expanded over the month, keeping those that overlap the month.
- **The per-type tally of working days** of the monthly recap (`updateMonthlyRecap`).
- **The month totals of the time entries** (`updateMonthlyRecap`, `calculateMonthTotals`).
- **The list updates of four form handlers:**
  - adding an employee;
  - deleting an employee, together with everything that refers to them;
  - adding a weekly recurring absence;
  - saving a time entry, which appends a new entry, or replaces the entry whose deletion was last started and not confirmed.

## Modules

- `Clock` (`clock.dfy`): calendar days and wall-clock instants.
  - A date is a day number, with day 0 = 1970-01-01, a Thursday.
  - An instant is a date with an hour and a minute.
  - `NextHour` is the source's `setHours(getHours() + 1, 0, 0, 0)`.
  - `Weekday` is `getDay`.
- `ShiftHours` (`shift_hours.dfy`): the calculator.
  - The hour-by-hour walk exists as a recursive function `Walk` and as the source's loop, `AccumulateHours`.
  - Then come the break scaling, the bonus and the total.
  - The source returns either `null`, a breakdown, or an all-NaN breakdown. These are the three cases of `HoursResult`: `Invalid`, `Computed` and `Undefined`.
- `DayCount` (`working_days.dfy`): the working-day counter.
  - It exists as a recursive function and as the source's loop.
  - Both are proved equal to the size of the set of weekdays in the range.
- `Lists` (`lists.dfy`): order-preserving `filter`.
- `Absences` (`absences.dfy`): absences and recurring rules, the month's view, and the tally.
- `MonthTotals` (`month_totals.dfy`): time entries, the month's entry list and the field-wise sums.
- `AppState` (`state.dfy`): the four stored lists and the handlers' transitions.
  - Each handler's early return becomes an `Err` naming the reason.

## Where the code and its documentation differ

The model follows the code in both cases:

- **The first step of the hour walk.** Each step adds the smaller of one hour and the time left in the shift (`script.js:291`). It then moves to the next whole hour (`script.js:289-290`). So a shift that starts off the hour and ends after the next whole hour is overcounted. The first step adds up to a full hour, and the walk then counts again from the next whole hour. When the shift lasts an hour or more, the excess is exactly the start's minutes past the hour. For example, 21:30–23:00 counts one normal hour and one night hour. A shorter shift of this kind is overcounted by its length minus the minutes to the next whole hour, so 21:30–22:10 counts 50 minutes. The count is exact when the shift starts on the hour or ends by the next whole hour. `CountedMinutes` states all of this.
- **Absence tally.** The tally does not read an absence's stored `days`: it recounts the working days of its date range (`script.js:468`). Two consequences:
  - a recurring occurrence on a Saturday or Sunday adds 0, although it is stored with `days: 1`;
  - a one-off absence overlapping the month adds all of its working days, including those outside the month.

## Model

| member | source | states |
|---|---|---|
| `Clock.NextHour` | script.js:289-290 | The next step starts one hour after the start of the current hour, so 60 minus the minutes past the hour later, on a whole hour, rolling over to the next day after 23:00. |
| `ShiftHours.StepMinutes` | script.js:291 | While the shift is not over, a step adds the smaller of one hour and what remains of the shift: a full hour, or exactly the remainder when that is less. |
| `ShiftHours.Walk` | script.js:283-304 | Each counted minute is night or normal, compensation minutes include all night minutes and are counted minutes, and something is counted exactly when the start is before the end. |
| `ShiftHours.AccumulateHours` | script.js:274-304 | The source's loop accumulates exactly the three buckets of the recursive walk. |
| `ShiftHours.ShiftMinutes` | script.js:266-272 | After rollover a shift lasts less than a day and lasts zero minutes exactly when its start and end times are equal. |
| `ShiftHours.MinutesIdentifyTime` | script.js:266-267 | Two valid times of day denote the same minute of the day exactly when they are equal. |
| `ShiftHours.CalculateHours` | script.js:265-322 | The result is `null` exactly when the rolled-over duration does not exceed the break. |
| `ShiftHours.UndefinedOnlyForNegativeBreak` | script.js:280-307 | The pause ratio divides by zero exactly for equal start and end times with a negative break. |
| `ShiftHours.Rollover` | script.js:266-272 | The end keeps its wall-clock time and moves to the next day exactly when it is earlier than the start. The shift's length is its duration in minutes. |
| `ShiftHours.AlignedWalkIsExact` | script.js:283-304 | From a whole hour on, normal plus night minutes equal the duration exactly. |
| `ShiftHours.CountedMinutes` | script.js:288-303 | The walk counts at least the duration and less than an hour more. Once the shift lasts an hour or more, the excess is exactly the minutes past the hour at which it starts. It is exact when the shift starts on the hour or ends by the next whole hour. |
| `ShiftHours.DaytimeWalk` | script.js:284-301 | Steps that all start between 05:00 and 22:00 add nothing to night or compensation. |
| `ShiftHours.ScaleArithmetic` | script.js:307-311 | A break shorter than the counted time gives a pause ratio in [0, 1), and scaling removes exactly the break. |
| `ShiftHours.ScaleBounds` | script.js:307-314 | Scaling by a kept share in (0, 1] keeps every field non-negative, with the bonus between a tenth of the night hours and a tenth of the counted hours. |
| `ShiftHours.ApplyBreakBounds` | script.js:306-321 | After the break: all fields are non-negative; exactly the break comes off the counted hours; the bonus is 0.1 times the scaled compensation hours and lies between a tenth of the night hours and a tenth of the counted hours; the total is the sum of the three fields. |
| `ShiftHours.ValidShiftIsScaled` | script.js:279-311 | A non-null result with a non-negative break always reaches the scaling step, with a break shorter than the counted time. |
| `ShiftHours.BreakScaling` | script.js:265-322 | For any accepted shift with a non-negative break, all the properties of `ApplyBreakBounds` hold of the calculator's result. |
| `ShiftHours.ComputedFromWalk` | script.js:283-321 | A breakdown is the break applied to the walk from the start to the rolled-over end. |
| `ShiftHours.TotalIsSum` | script.js:313-314 | Whatever the break, a breakdown's total is normal plus night plus bonus. |
| `ShiftHours.DaytimeShift` | script.js:283-321 | A same-day shift within 05:00–22:00 gets no night hours and no bonus, and its total is its normal hours. Started on the hour with no break, it counts exactly its duration. |
| `ShiftHours.OvernightExample` | script.js:265-322 | 23:00–01:00 with no break gives 0 normal, 2 night, 0.2 bonus and 2.2 total. |
| `ShiftHours.BreakExample` | script.js:265-322 | 08:00–12:00 with a 30-minute break gives 3.5 normal hours and a total of 3.5. |
| `ShiftHours.OffHourExample` | script.js:288-303 | 21:30–23:00 counts one full normal hour for its first half hour, then one night hour. |
| `ShiftHours.EqualTimesRejected` | script.js:280-281 | Equal start and end times with no break are rejected. |
| `DayCount.WorkingDays` | script.js:613-627 | An empty range counts 0, and a range never counts more days than it holds. |
| `DayCount.CountWorkingDays` | script.js:613-627 | The source's loop counts exactly the days of the range that are neither Saturday nor Sunday. |
| `DayCount.CountsWeekdays` | script.js:619-625 | The recursive count equals the size of the set of weekdays in the range. |
| `DayCount.SplitRange` | script.js:619-625 | Counts over adjacent ranges add up. |
| `DayCount.NextWeekday` | script.js:621-624 | The weekday advances by one each day, wrapping from Saturday to Sunday. |
| `DayCount.WeekHasFiveWorkingDays` | script.js:619-625 | Any seven consecutive days hold exactly five working days. |
| `DayCount.WholeWeeks` | script.js:619-625 | A range of whole weeks counts five days per week. |
| `DayCount.WorkingWeekExample` | script.js:613-627 | Monday 2024-01-01 to Friday 2024-01-05 counts 5, and the following weekend counts 0. |
| `Lists.Filter` | script.js:165 | The filtered list keeps exactly the elements passing the test, and is no longer than the original. |
| `Lists.FilterAppend` | script.js:1052-1056 | Filtering a concatenation filters each part. |
| `Lists.FilterKeepsPairwise` | script.js:165-177 | Filtering keeps order, so a relation between every earlier and later element survives it. |
| `Absences.Occurrences` | script.js:1036-1049 | One rule's walk over the month's dates. It has no contract of its own: `Absences.OccurrencesShape`, `Absences.OccurrencesComplete` and `Absences.WeekOccurrences` characterise it. |
| `Absences.OccurrencesShape` | script.js:1036-1049 | Each generated occurrence is the rule's one-day absence on a date of the month that falls on the rule's weekday, and the dates strictly ascend. |
| `Absences.OccurrencesComplete` | script.js:1036-1049 | Every date of the month on the rule's weekday gets its occurrence. |
| `Absences.OccurrencesSplit` | script.js:1037-1049 | The occurrences over adjacent ranges are those of the first range followed by those of the second. |
| `Absences.WeekOccurrences` | script.js:1036-1049 | Any seven consecutive days hold exactly one occurrence of a rule with a weekday from 0 to 6, and none of a rule with any other weekday. |
| `Absences.WholeWeekOccurrences` | script.js:1036-1049 | A range of whole weeks holds one occurrence per week. |
| `Absences.ExpandRules` | script.js:1035-1050 | All rules' occurrences, rule after rule. It has no contract of its own: `Absences.ExpandRulesSingle` and `Absences.ExpandRulesAppend` together fix it as each rule's occurrences once, in rule order. `Absences.ExpandRulesSound` and `Absences.ExpandRulesComplete` state which absences it holds. |
| `Absences.ExpandRulesSingle` | script.js:1035-1050 | One rule expands to exactly its own occurrences, each once and in date order. |
| `Absences.ExpandRulesSound` | script.js:1035-1050 | Every expanded absence is the occurrence of some stored rule, on a date of the month that falls on that rule's weekday. |
| `Absences.ExpandRulesComplete` | script.js:1035-1050 | Every rule contributes every date of the month on its weekday. |
| `Absences.ExpandRulesAppend` | script.js:1035-1050 | Expanding two lists of rules one after the other expands their concatenation. |
| `Absences.GetMonthAbsences` | script.js:1031-1057 | Every absence in the month's view overlaps the month. |
| `Absences.MonthAbsencesShape` | script.js:1031-1057 | The month's view is exactly the overlapping one-off absences, in stored order, followed by all the recurring occurrences. The overlap test never drops an occurrence. |
| `Absences.OneOffKeptIffOverlapping` | script.js:1052-1056 | A stored absence appears in the view exactly when it overlaps the month. |
| `Absences.RecurringOccurrenceListed` | script.js:1038-1046 | For each rule and each date of the month on its weekday, the view holds a single-day absence with `days` 1, the rule's employee and the rule's type. |
| `Absences.Tally` | script.js:459-471 | Every per-type count is non-negative, and the total is the sum of the four types. |
| `Absences.TallyByType` | script.js:467-471 | Each type's count is the working days of that type's absences, and the total is the working days of all of them. |
| `Absences.DaysOfTypeAppend` | script.js:467-471 | A type's working days over two lists add up. |
| `Absences.OccurrenceTally` | script.js:468 | A weekend occurrence adds 0 to the tally and a weekday occurrence adds 1, although both are stored with `days` 1. |
| `Absences.SpillOverExample` | script.js:456-471 | A vacation from Tuesday 2024-01-30 to Saturday 2024-02-03 adds 4 working days to January, two of which fall in February. |
| `Absences.MonthAbsenceTotals` | script.js:456-471 | The absence part of the recap. It has no contract of its own: `Absences.TallyByType` and `Absences.MonthAbsencesShape` characterise its parts, and `Absences.RecapIgnoresOthers` states it directly. |
| `Absences.MonthAbsencesAppend` | script.js:1031-1057 | The view of two stores' absences and rules taken together is each store's overlapping absences, then each store's occurrences. |
| `Absences.ExpandedEmployees` | script.js:1039-1041 | With no recurring rule for an employee, no occurrence belongs to that employee. That each occurrence carries its own rule's employee and type is stated by `Absences.ExpandRulesSound`. |
| `Absences.RecapIgnoresOthers` | script.js:456-471 | One employee's absence recap is unchanged by other employees' absences and recurring rules. |
| `MonthTotals.MonthTotals` | script.js:1267-1275 | `calculateMonthTotals`, the sum that `updateMonthlyRecap` also computes. It has no contract of its own: `MonthTotals.MonthTotalsSingle` and `MonthTotals.MonthTotalsAppend` together fix it as the field-wise sum of each entry's `Fields`, and `MonthTotals.OnlyComputedCount`, `MonthTotals.TotalsAddUp` and `MonthTotals.TotalsNonNegative` state its consequences. |
| `MonthTotals.MonthTotalsSingle` | script.js:1268-1274 | One entry's totals are exactly the four fields it contributes, with zeros for a `null` or NaN result. |
| `MonthTotals.Fields` | script.js:1269-1272 | `entry.field \|\| 0`. It has no contract of its own: `MonthTotals.MonthTotalsSingle` states what an entry contributes. |
| `MonthTotals.MonthTotalsAppend` | script.js:1267-1275 | The totals of two lists of entries one after the other add up field by field. |
| `MonthTotals.OnlyComputedCount` | script.js:1268-1274 | The totals are those of the entries that have a breakdown. |
| `MonthTotals.TotalsAddUp` | script.js:441-446 | For entries saved from the form, the month's total is normal plus night plus bonus. |
| `MonthTotals.TotalsNonNegative` | script.js:441-446 | For entries saved with non-negative breaks, no total is negative and the bonus is at most a tenth of the worked hours. |
| `MonthTotals.MonthEntries` | script.js:427-431 | The month's entries for the selection. It has no contract of its own: `MonthTotals.MonthEntriesMembership` characterises it. |
| `MonthTotals.MonthEntriesMembership` | script.js:427-431 | An entry is in the month's list exactly when it is stored, dated within the month and, if an employee is selected, that employee's. |
| `MonthTotals.MonthTotalsIgnoreOthers` | script.js:427-446 | Entries outside the month or of other employees leave the selected employee's totals unchanged. |
| `AppState.DropLeading` | script.js:122 | Leading trimming removes only white space and leaves a string that is empty or starts with a non-space. |
| `AppState.DropTrailing` | script.js:122 | Trailing trimming removes only white space and leaves a string that is empty or ends with a non-space. |
| `AppState.Trim` | script.js:122 | `String.prototype.trim`. It has no contract of its own: `AppState.TrimShape` and `AppState.TrimIdempotent` characterise it. |
| `AppState.TrimShape` | script.js:122 | The trimmed name is a contiguous part of the input with only white space around it, and neither starts nor ends with white space. |
| `AppState.TrimIdempotent` | script.js:122 | Trimming a trimmed name changes nothing. |
| `AppState.Lower` | script.js:130 | Lower-casing keeps the length and leaves no upper-case Basic Latin or Latin-1 letter. Each such letter becomes the letter 32 code points above it, and every other character is kept. |
| `AppState.LowerIdempotent` | script.js:130 | Lower-casing a lower-cased name changes nothing. |
| `AppState.AddEmployee` | script.js:120-137 | It succeeds exactly when the trimmed name is non-empty and no stored name equals it up to case, and then appends the trimmed name. An empty trimmed name is refused as empty. |
| `AppState.AddEmployeeKeepsNamesUnique` | script.js:129-137 | Adding an employee keeps names unique up to letter case. |
| `AppState.AddEmployeeRefusesCaseVariant` | script.js:122-133 | With "Alice" stored, " ALICE " is refused as a duplicate. |
| `AppState.DeleteEmployee` | script.js:153-178 | A deletion happens exactly when an employee is selected and the deletion is confirmed, and it never adds entries or absences. |
| `AppState.DeleteEmployeeCascades` | script.js:164-178 | Afterwards no employee name, entry, absence or rule refers to the deleted employee. Everything else is kept, and nothing new appears. |
| `AppState.DeleteEmployeeKeepsInvariants` | script.js:164-178 | Deleting keeps employee names unique up to case and recurring rules unique per employee and weekday. |
| `AppState.AddRecurring` | script.js:708-736 | With an employee selected: the rule is refused as a duplicate exactly when that employee already has a rule for that weekday; otherwise the new rule, with the clock reading as its id, is appended. |
| `AppState.AddRecurringKeepsRulesUnique` | script.js:718-736 | Adding a rule keeps each employee's weekdays distinct. |
| `AppState.ReplaceById` | script.js:243 | The `map` that replaces the entry with the pending id. It has no contract of its own: `AppState.ReplaceByIdChangesOne` characterises it. |
| `AppState.ReplaceByIdChangesOne` | script.js:243 | With distinct ids, the entry with the given id is replaced in place and nothing else changes. A missing id changes nothing, and ids stay distinct. |
| `AppState.SubmitEntry` | script.js:211-247 | It refuses exactly a missing employee or a missing date or time. A new entry is appended after the unchanged stored list, with the clock reading as its id, the form's fields and the calculator's result for them. With a pending id, which `deleteEntry` leaves in `currentEntryId` when the deletion is not confirmed, the list keeps its length. Every entry with that id becomes the new entry under that id, and every other entry is kept in place. So the next save overwrites the entry whose deletion was cancelled instead of appending. |
| `AppState.SubmitEntryKeepsInvariants` | script.js:230-247 | Saving keeps every entry's hours equal to the calculator's result for its fields, and keeps ids distinct when the clock reading is not already an id. |

## Left out

- Storage (`localStorage`), the DOM, rendering, printing, import/export and the other handlers (`handleAddAbsence`, deleting a single entry or absence) are not part of this model. Only the id that `deleteEntry` leaves behind is modelled, as the parameter `pending` of `SubmitEntry`.
- The selection and form state left behind by the handlers (selected employee, reset fields, next day's date) is not modelled: only the stored lists are.
- Time zones and daylight saving are not modelled. Every day has 24 hours, and a date string and a local date denote the same day number. This leaves out two things:
  - the UTC parsing of `YYYY-MM-DD` strings against local month bounds (`script.js:428`, `script.js:1053-1055`);
  - the UTC date taken by `toISOString` for recurring occurrences (`script.js:1043`).
- Hours are exact reals, whereas the source uses IEEE-754 doubles. Results agree only up to rounding.
- `parseInt` producing `NaN` is not modelled: a break and a weekday are integers. An unknown absence type, which the tally would add under a new key, is not modelled either: the four types are a datatype.
- `Date.now()` is the parameter `now`. In `getMonthAbsences` the source reads the clock again for each occurrence. The model uses one reading per call, which only affects the generated ids.
- `confirm` is the parameter `confirmed`, the answer given to the dialog.
- `toLowerCase` is modelled for the upper-case letters of Basic Latin and Latin-1 only. Every other upper-case letter compares as written, although `toLowerCase` folds it. This covers Latin Extended letters such as Œ (U+0152) and Ÿ (U+0178), and Greek and Cyrillic letters. For example, the model accepts "ŒUVRE" next to "œuvre", which the source refuses as a duplicate.
- `formatHours`, `formatBalance` and the monthly balance against the 182-hour target (`script.js:453`) are display only.
- `ShiftHours.CalculateHours`: the all-NaN record of the zero-length shift with a negative break is represented as `Undefined`, not as four NaN fields.
- `AppState.SubmitEntry`: the pending id is an integer with 0 for "none", because the source's `currentEntryId || Date.now()` treats null and 0 alike.

=== FILE: absences.dfy ===
/** Absences in the monthly recap of script.js: the month's view of one-off and
    weekly recurring absences (`getMonthAbsences`) and the per-type tally of
    working days (`updateMonthlyRecap`). */
module Absences {
  import opened Clock
  import opened Lists
  import opened DayCount

  /** The four absence types, stored as 'holiday', 'vacation', 'leave' and
      'sick'. */
  datatype AbsenceType = Holiday | Vacation | Leave | Sick

  /** A one-off absence over an inclusive range of dates. `days` is stored when
      the absence is created; the recap does not read it. */
  datatype Absence = Absence(
    id: int,
    employee: string,
    absenceType: AbsenceType,
    startDate: int,
    endDate: int,
    days: int)

  /** A weekly recurring absence: every date whose weekday is `dayOfWeek`
      (0 = Sunday .. 6 = Saturday). */
  datatype RecurringRule = RecurringRule(
    id: int,
    employee: string,
    dayOfWeek: int,
    absenceType: AbsenceType)

  /** The single-day absence a rule produces on `date`. Its id is the clock
      reading `now` plus the date's time value in milliseconds (86 400 000 per
      day). */
  function Occurrence(rule: RecurringRule, date: int, now: int): Absence {
    Absence(now + date * 86400000, rule.employee, rule.absenceType, date, date, 1)
  }

  /** The occurrences of one rule from `from` to `monthEnd`, walking the dates
      in ascending order. */
  function Occurrences(rule: RecurringRule, from: int, monthEnd: int, now: int): seq<Absence>
    decreases monthEnd - from
  {
    if monthEnd < from then []
    else
      (if Weekday(from) == rule.dayOfWeek then [Occurrence(rule, from, now)] else [])
      + Occurrences(rule, from + 1, monthEnd, now)
  }

  /** `a` is the occurrence of `rule` on a date of the range that falls on
      the rule's weekday. */
  predicate OccurrenceWithin(a: Absence, rule: RecurringRule, from: int, monthEnd: int, now: int) {
    && from <= a.startDate <= monthEnd
    && Weekday(a.startDate) == rule.dayOfWeek
    && a == Occurrence(rule, a.startDate, now)
  }

  /** Each occurrence is the rule's single-day absence on a date of the range
      that falls on the rule's weekday, and the dates strictly ascend. */
  lemma OccurrencesShape(rule: RecurringRule, from: int, monthEnd: int, now: int)
    ensures forall i :: 0 <= i < |Occurrences(rule, from, monthEnd, now)| ==>
      OccurrenceWithin(Occurrences(rule, from, monthEnd, now)[i], rule, from, monthEnd, now)
    ensures forall i, j :: 0 <= i < j < |Occurrences(rule, from, monthEnd, now)| ==>
      Occurrences(rule, from, monthEnd, now)[i].startDate < Occurrences(rule, from, monthEnd, now)[j].startDate
  {
    OccurrencesWithin(rule, from, monthEnd, now);
    OccurrencesAscend(rule, from, monthEnd, now);
  }

  lemma {:induction false} OccurrencesWithin(rule: RecurringRule, from: int, monthEnd: int, now: int)
    ensures forall i :: 0 <= i < |Occurrences(rule, from, monthEnd, now)| ==>
      OccurrenceWithin(Occurrences(rule, from, monthEnd, now)[i], rule, from, monthEnd, now)
    decreases monthEnd - from
  {
    if from <= monthEnd {
      OccurrencesWithin(rule, from + 1, monthEnd, now);
      var rest := Occurrences(rule, from + 1, monthEnd, now);
      var r := Occurrences(rule, from, monthEnd, now);
      var head := if Weekday(from) == rule.dayOfWeek then [Occurrence(rule, from, now)] else [];
      assert r == head + rest;
      forall i | 0 <= i < |r|
        ensures OccurrenceWithin(r[i], rule, from, monthEnd, now)
      {
        if i >= |head| {
          assert r[i] == rest[i - |head|];
          assert OccurrenceWithin(rest[i - |head|], rule, from + 1, monthEnd, now);
        }
      }
    }
  }

  lemma {:induction false} OccurrencesAscend(rule: RecurringRule, from: int, monthEnd: int, now: int)
    ensures forall i, j :: 0 <= i < j < |Occurrences(rule, from, monthEnd, now)| ==>
      Occurrences(rule, from, monthEnd, now)[i].startDate < Occurrences(rule, from, monthEnd, now)[j].startDate
    decreases monthEnd - from
  {
    if from <= monthEnd {
      OccurrencesAscend(rule, from + 1, monthEnd, now);
      OccurrencesWithin(rule, from + 1, monthEnd, now);
      var rest := Occurrences(rule, from + 1, monthEnd, now);
      var r := Occurrences(rule, from, monthEnd, now);
      if Weekday(from) == rule.dayOfWeek {
        assert r == [Occurrence(rule, from, now)] + rest;
        forall i, j | 0 <= i < j < |r|
          ensures r[i].startDate < r[j].startDate
        {
          assert r[j] == rest[j - 1];
          assert OccurrenceWithin(rest[j - 1], rule, from + 1, monthEnd, now);
          if i > 0 {
            assert r[i] == rest[i - 1];
          }
        }
      }
    }
  }

  /** Every date of the range on the rule's weekday has its occurrence. */
  lemma {:induction false} OccurrencesComplete(rule: RecurringRule, from: int, monthEnd: int, now: int, date: int)
    requires from <= date <= monthEnd && Weekday(date) == rule.dayOfWeek
    ensures Occurrence(rule, date, now) in Occurrences(rule, from, monthEnd, now)
    decreases date - from
  {
    if from < date {
      OccurrencesComplete(rule, from + 1, monthEnd, now, date);
    }
  }

  /** Splitting the date range splits the occurrences. */
  lemma {:induction false} OccurrencesSplit(rule: RecurringRule, from: int, middle: int, monthEnd: int, now: int)
    requires from <= middle + 1 && middle <= monthEnd
    ensures Occurrences(rule, from, monthEnd, now)
      == Occurrences(rule, from, middle, now) + Occurrences(rule, middle + 1, monthEnd, now)
    decreases middle - from
  {
    if from <= middle {
      OccurrencesSplit(rule, from + 1, middle, monthEnd, now);
      var head := if Weekday(from) == rule.dayOfWeek then [Occurrence(rule, from, now)] else [];
      var left := Occurrences(rule, from + 1, middle, now);
      var right := Occurrences(rule, middle + 1, monthEnd, now);
      assert Occurrences(rule, from, monthEnd, now) == head + (left + right);
      assert Occurrences(rule, from, middle, now) == head + left;
      assert head + (left + right) == (head + left) + right;
    }
  }

  /** Every week of the range holds exactly one occurrence of a rule whose
      weekday is a real weekday, and none of any other rule. */
  lemma WeekOccurrences(rule: RecurringRule, from: int, now: int)
    ensures |Occurrences(rule, from, from + 6, now)| == if 0 <= rule.dayOfWeek < 7 then 1 else 0
  {
    NextWeekday(from);
    NextWeekday(from + 1);
    NextWeekday(from + 2);
    NextWeekday(from + 3);
    NextWeekday(from + 4);
    NextWeekday(from + 5);
    var d := rule.dayOfWeek;
    assert |Occurrences(rule, from + 7, from + 6, now)| == 0;
    assert |Occurrences(rule, from + 6, from + 6, now)| == (if Weekday(from + 6) == d then 1 else 0);
    assert |Occurrences(rule, from + 5, from + 6, now)|
      == (if Weekday(from + 5) == d then 1 else 0) + |Occurrences(rule, from + 6, from + 6, now)|;
    assert |Occurrences(rule, from + 4, from + 6, now)|
      == (if Weekday(from + 4) == d then 1 else 0) + |Occurrences(rule, from + 5, from + 6, now)|;
    assert |Occurrences(rule, from + 3, from + 6, now)|
      == (if Weekday(from + 3) == d then 1 else 0) + |Occurrences(rule, from + 4, from + 6, now)|;
    assert |Occurrences(rule, from + 2, from + 6, now)|
      == (if Weekday(from + 2) == d then 1 else 0) + |Occurrences(rule, from + 3, from + 6, now)|;
    assert |Occurrences(rule, from + 1, from + 6, now)|
      == (if Weekday(from + 1) == d then 1 else 0) + |Occurrences(rule, from + 2, from + 6, now)|;
    assert |Occurrences(rule, from, from + 6, now)|
      == (if Weekday(from) == d then 1 else 0) + |Occurrences(rule, from + 1, from + 6, now)|;
  }

  /** A range of whole weeks holds one occurrence per week. */
  lemma {:induction false} WholeWeekOccurrences(rule: RecurringRule, from: int, weeks: nat, now: int)
    requires 0 <= rule.dayOfWeek < 7
    ensures |Occurrences(rule, from, from + 7 * weeks - 1, now)| == weeks
    decreases weeks
  {
    if weeks > 0 {
      WeekOccurrences(rule, from, now);
      WholeWeekOccurrences(rule, from + 7, weeks - 1, now);
      OccurrencesSplit(rule, from, from + 6, from + 7 * weeks - 1, now);
    }
  }

  /** The occurrences of all rules, rule after rule in list order. */
  function ExpandRules(rules: seq<RecurringRule>, monthStart: int, monthEnd: int, now: int): seq<Absence>
    decreases |rules|
  {
    if |rules| == 0 then []
    else Occurrences(rules[0], monthStart, monthEnd, now) + ExpandRules(rules[1..], monthStart, monthEnd, now)
  }

  /** A single rule expands to its own occurrences, each once and in date
      order. */
  lemma ExpandRulesSingle(rule: RecurringRule, monthStart: int, monthEnd: int, now: int)
    ensures ExpandRules([rule], monthStart, monthEnd, now) == Occurrences(rule, monthStart, monthEnd, now)
  {
    assert [rule][1..] == [];
  }

  /** `a` is the occurrence of one of `rules` on a date of the month that
      falls on that rule's weekday. */
  predicate OccurrenceOfSome(a: Absence, rules: seq<RecurringRule>, monthStart: int, monthEnd: int, now: int) {
    exists rule :: rule in rules && OccurrenceWithin(a, rule, monthStart, monthEnd, now)
  }

  /** Everything the expansion produces lies in the month and is some rule's
      occurrence on a date of that rule's weekday. */
  lemma {:induction false} ExpandRulesSound(rules: seq<RecurringRule>, monthStart: int, monthEnd: int, now: int)
    ensures forall a :: a in ExpandRules(rules, monthStart, monthEnd, now) ==>
      OccurrenceOfSome(a, rules, monthStart, monthEnd, now)
    decreases |rules|
  {
    if |rules| > 0 {
      var first := Occurrences(rules[0], monthStart, monthEnd, now);
      var rest := ExpandRules(rules[1..], monthStart, monthEnd, now);
      OccurrencesShape(rules[0], monthStart, monthEnd, now);
      ExpandRulesSound(rules[1..], monthStart, monthEnd, now);
      forall a: Absence | a in first + rest
        ensures OccurrenceOfSome(a, rules, monthStart, monthEnd, now)
      {
        if a in first {
          var i :| 0 <= i < |first| && first[i] == a;
          assert OccurrenceWithin(first[i], rules[0], monthStart, monthEnd, now);
          assert rules[0] in rules;
        } else {
          assert a in rest;
          assert OccurrenceOfSome(a, rules[1..], monthStart, monthEnd, now);
          var rule :| rule in rules[1..] && OccurrenceWithin(a, rule, monthStart, monthEnd, now);
          assert rule in rules;
        }
      }
    }
  }

  /** Every rule contributes each date of the month on its weekday. */
  lemma {:induction false} ExpandRulesComplete(rules: seq<RecurringRule>, monthStart: int, monthEnd: int, now: int, k: int, date: int)
    requires 0 <= k < |rules|
    requires monthStart <= date <= monthEnd && Weekday(date) == rules[k].dayOfWeek
    ensures Occurrence(rules[k], date, now) in ExpandRules(rules, monthStart, monthEnd, now)
    decreases k
  {
    if k == 0 {
      OccurrencesComplete(rules[0], monthStart, monthEnd, now, date);
    } else {
      assert rules[1..][k - 1] == rules[k];
      ExpandRulesComplete(rules[1..], monthStart, monthEnd, now, k - 1, date);
    }
  }

  /** Expanding two lists of rules one after the other expands their
      concatenation. */
  lemma {:induction false} ExpandRulesAppend(a: seq<RecurringRule>, b: seq<RecurringRule>, monthStart: int, monthEnd: int, now: int)
    ensures ExpandRules(a + b, monthStart, monthEnd, now)
      == ExpandRules(a, monthStart, monthEnd, now) + ExpandRules(b, monthStart, monthEnd, now)
    decreases |a|
  {
    if |a| == 0 {
      assert a + b == b;
    } else {
      assert (a + b)[0] == a[0];
      assert (a + b)[1..] == a[1..] + b;
      ExpandRulesAppend(a[1..], b, monthStart, monthEnd, now);
      var first := Occurrences(a[0], monthStart, monthEnd, now);
      assert first + (ExpandRules(a[1..], monthStart, monthEnd, now) + ExpandRules(b, monthStart, monthEnd, now))
        == (first + ExpandRules(a[1..], monthStart, monthEnd, now)) + ExpandRules(b, monthStart, monthEnd, now);
    }
  }

  /** An absence overlaps the month when it starts no later than the month's
      last day and ends no earlier than its first day. */
  predicate Overlaps(a: Absence, monthStart: int, monthEnd: int) {
    a.startDate <= monthEnd && a.endDate >= monthStart
  }

  function OverlapsMonth(monthStart: int, monthEnd: int): Absence -> bool {
    (a: Absence) => Overlaps(a, monthStart, monthEnd)
  }

  /** The month's absences: the stored one-off absences followed by the
      expanded recurring rules, keeping those that overlap the month. */
  function GetMonthAbsences(absences: seq<Absence>, rules: seq<RecurringRule>, monthStart: int, monthEnd: int, now: int): (r: seq<Absence>)
    ensures forall a :: a in r ==> Overlaps(a, monthStart, monthEnd)
  {
    Filter(absences + ExpandRules(rules, monthStart, monthEnd, now), OverlapsMonth(monthStart, monthEnd))
  }

  /** The month's absences are exactly the overlapping one-off absences, in
      stored order, followed by every occurrence of every rule: the recurring
      occurrences all lie inside the month, so the overlap test keeps them
      all. */
  lemma MonthAbsencesShape(absences: seq<Absence>, rules: seq<RecurringRule>, monthStart: int, monthEnd: int, now: int)
    ensures GetMonthAbsences(absences, rules, monthStart, monthEnd, now)
      == Filter(absences, OverlapsMonth(monthStart, monthEnd)) + ExpandRules(rules, monthStart, monthEnd, now)
  {
    var p := OverlapsMonth(monthStart, monthEnd);
    var expanded := ExpandRules(rules, monthStart, monthEnd, now);
    ExpandRulesSound(rules, monthStart, monthEnd, now);
    FilterAppend(absences, expanded, p);
    FilterAll(expanded, p);
  }

  /** A stored one-off absence appears in the month's view exactly when it
      overlaps the month. */
  lemma OneOffKeptIffOverlapping(absences: seq<Absence>, rules: seq<RecurringRule>, monthStart: int, monthEnd: int, now: int, a: Absence)
    requires a in absences
    ensures a in GetMonthAbsences(absences, rules, monthStart, monthEnd, now) <==> Overlaps(a, monthStart, monthEnd)
  {
  }

  /** Each rule's occurrence on each date of the month on its weekday is in
      the month's view, as a single-day absence of one day for the rule's
      employee and type. */
  lemma RecurringOccurrenceListed(absences: seq<Absence>, rules: seq<RecurringRule>, monthStart: int, monthEnd: int, now: int, k: int, date: int)
    requires 0 <= k < |rules|
    requires monthStart <= date <= monthEnd && Weekday(date) == rules[k].dayOfWeek
    ensures var a := Occurrence(rules[k], date, now);
      && a in GetMonthAbsences(absences, rules, monthStart, monthEnd, now)
      && a.startDate == a.endDate == date
      && a.days == 1
      && a.employee == rules[k].employee
      && a.absenceType == rules[k].absenceType
  {
    ExpandRulesComplete(rules, monthStart, monthEnd, now, k, date);
  }

  // ---------------------------------------------------------------------
  // The per-type tally

  /** Working days per absence type, and their total. */
  datatype AbsenceTotals = AbsenceTotals(holiday: int, vacation: int, leave: int, sick: int, total: int)

  /** Adds one absence: its working days, recomputed from its dates, go to its
      type and to the total. */
  function CountAbsence(totals: AbsenceTotals, a: Absence): AbsenceTotals {
    var days := WorkingDays(a.startDate, a.endDate);
    var t := totals.(total := totals.total + days);
    match a.absenceType
    case Holiday => t.(holiday := t.holiday + days)
    case Vacation => t.(vacation := t.vacation + days)
    case Leave => t.(leave := t.leave + days)
    case Sick => t.(sick := t.sick + days)
  }

  /** The tally of a list of absences, added in list order from all-zero
      totals. */
  function Tally(absences: seq<Absence>): (t: AbsenceTotals)
    ensures t.total == t.holiday + t.vacation + t.leave + t.sick
    ensures 0 <= t.holiday && 0 <= t.vacation && 0 <= t.leave && 0 <= t.sick
  {
    if |absences| == 0 then AbsenceTotals(0, 0, 0, 0, 0)
    else CountAbsence(Tally(absences[..|absences| - 1]), absences[|absences| - 1])
  }

  /** Working days of the absences of one type, summed front to back: the
      independent definition the tally is proved equal to. */
  function DaysOfType(absences: seq<Absence>, t: AbsenceType): nat {
    if |absences| == 0 then 0
    else
      var own := if absences[0].absenceType == t then WorkingDays(absences[0].startDate, absences[0].endDate) else 0;
      own + DaysOfType(absences[1..], t)
  }

  /** Working days of all the absences, summed front to back. */
  function AllDays(absences: seq<Absence>): nat {
    if |absences| == 0 then 0
    else WorkingDays(absences[0].startDate, absences[0].endDate) + AllDays(absences[1..])
  }

  lemma {:induction false} DaysOfTypeAppend(a: seq<Absence>, b: seq<Absence>, t: AbsenceType)
    ensures DaysOfType(a + b, t) == DaysOfType(a, t) + DaysOfType(b, t)
    decreases |a|
  {
    if |a| == 0 {
      assert a + b == b;
    } else {
      assert (a + b)[0] == a[0];
      assert (a + b)[1..] == a[1..] + b;
      DaysOfTypeAppend(a[1..], b, t);
    }
  }

  lemma {:induction false} AllDaysAppend(a: seq<Absence>, b: seq<Absence>)
    ensures AllDays(a + b) == AllDays(a) + AllDays(b)
    decreases |a|
  {
    if |a| == 0 {
      assert a + b == b;
    } else {
      assert (a + b)[0] == a[0];
      assert (a + b)[1..] == a[1..] + b;
      AllDaysAppend(a[1..], b);
    }
  }

  /** Each field of the tally is the working days of the absences of that
      type, and the total is the working days of all of them. */
  lemma {:induction false} TallyByType(absences: seq<Absence>)
    ensures var t := Tally(absences);
      && t.holiday == DaysOfType(absences, Holiday)
      && t.vacation == DaysOfType(absences, Vacation)
      && t.leave == DaysOfType(absences, Leave)
      && t.sick == DaysOfType(absences, Sick)
      && t.total == AllDays(absences)
    decreases |absences|
  {
    if |absences| > 0 {
      var init := absences[..|absences| - 1];
      var last := absences[|absences| - 1];
      assert absences == init + [last];
      TallyByType(init);
      DaysOfTypeAppend(init, [last], Holiday);
      DaysOfTypeAppend(init, [last], Vacation);
      DaysOfTypeAppend(init, [last], Leave);
      DaysOfTypeAppend(init, [last], Sick);
      AllDaysAppend(init, [last]);
    }
  }

  /** A recurring occurrence on a Saturday or Sunday adds nothing to the
      tally, although its stored `days` is 1; on a weekday it adds one day to
      its type. */
  lemma OccurrenceTally(rule: RecurringRule, date: int, now: int)
    ensures var t := Tally([Occurrence(rule, date, now)]);
      && Occurrence(rule, date, now).days == 1
      && t.total == (if IsWeekend(date) then 0 else 1)
  {
    assert [Occurrence(rule, date, now)][..0] == [];
  }

  /** A one-off absence from Tuesday 2024-01-30 (day 19752) to Saturday
      2024-02-03 adds four working days to January's tally, although only two
      of them fall in January. */
  lemma SpillOverExample(now: int)
    ensures var a := Absence(now, "A", Vacation, 19752, 19756, 4);
      var t := Tally(GetMonthAbsences([a], [], 19723, 19753, now));
      t.vacation == 4 && t.total == 4
  {
    var a := Absence(now, "A", Vacation, 19752, 19756, 4);
    MonthAbsencesShape([a], [], 19723, 19753, now);
    assert Filter([a], OverlapsMonth(19723, 19753)) == [a];
    assert GetMonthAbsences([a], [], 19723, 19753, now) == [a];
    assert Weekday(19752) == 2;
    NextWeekday(19752);
    NextWeekday(19753);
    NextWeekday(19754);
    NextWeekday(19755);
    assert WorkingDays(19756, 19756) == 0;
    assert WorkingDays(19755, 19756) == 1;
    assert WorkingDays(19754, 19756) == 2;
    assert WorkingDays(19753, 19756) == 3;
    assert WorkingDays(19752, 19756) == 4;
    assert [a][..0] == [];
  }

  // ---------------------------------------------------------------------
  // The recap for one employee or for all

  /** The selected employee, where the empty name selects everybody. */
  function ForEmployee(selected: string): Absence -> bool {
    (a: Absence) => selected == "" || a.employee == selected
  }

  /** The absence part of the monthly recap. */
  function MonthAbsenceTotals(absences: seq<Absence>, rules: seq<RecurringRule>, monthStart: int, monthEnd: int, now: int, selected: string): AbsenceTotals {
    Tally(Filter(GetMonthAbsences(absences, rules, monthStart, monthEnd, now), ForEmployee(selected)))
  }

  /** The month's view of two stores' absences and rules taken together: each
      store's overlapping one-off absences, then each store's occurrences. */
  lemma MonthAbsencesAppend(absences: seq<Absence>, others: seq<Absence>, rules: seq<RecurringRule>, otherRules: seq<RecurringRule>,
                            monthStart: int, monthEnd: int, now: int)
    ensures var p := OverlapsMonth(monthStart, monthEnd);
      GetMonthAbsences(absences + others, rules + otherRules, monthStart, monthEnd, now)
      == Filter(absences, p) + Filter(others, p)
         + ExpandRules(rules, monthStart, monthEnd, now) + ExpandRules(otherRules, monthStart, monthEnd, now)
  {
    var p := OverlapsMonth(monthStart, monthEnd);
    MonthAbsencesShape(absences + others, rules + otherRules, monthStart, monthEnd, now);
    ExpandRulesAppend(rules, otherRules, monthStart, monthEnd, now);
    FilterAppend(absences, others, p);
  }

  /** With no rule for an employee, no occurrence belongs to that employee. */
  lemma ExpandedEmployees(rules: seq<RecurringRule>, monthStart: int, monthEnd: int, now: int, selected: string)
    requires forall rule :: rule in rules ==> rule.employee != selected
    ensures forall a :: a in ExpandRules(rules, monthStart, monthEnd, now) ==> a.employee != selected
  {
    ExpandRulesSound(rules, monthStart, monthEnd, now);
    forall a | a in ExpandRules(rules, monthStart, monthEnd, now)
      ensures a.employee != selected
    {
      assert OccurrenceOfSome(a, rules, monthStart, monthEnd, now);
      var rule :| rule in rules && OccurrenceWithin(a, rule, monthStart, monthEnd, now);
    }
  }

  /** The recap for one employee is unaffected by other employees' absences
      and recurring rules. */
  lemma RecapIgnoresOthers(absences: seq<Absence>, rules: seq<RecurringRule>, others: seq<Absence>, otherRules: seq<RecurringRule>,
                           monthStart: int, monthEnd: int, now: int, selected: string)
    requires selected != ""
    requires forall a :: a in others ==> a.employee != selected
    requires forall rule :: rule in otherRules ==> rule.employee != selected
    ensures MonthAbsenceTotals(absences + others, rules + otherRules, monthStart, monthEnd, now, selected)
      == MonthAbsenceTotals(absences, rules, monthStart, monthEnd, now, selected)
  {
    var p := OverlapsMonth(monthStart, monthEnd);
    var q := ForEmployee(selected);
    var expanded := ExpandRules(rules, monthStart, monthEnd, now);
    var otherExpanded := ExpandRules(otherRules, monthStart, monthEnd, now);
    MonthAbsencesAppend(absences, others, rules, otherRules, monthStart, monthEnd, now);
    MonthAbsencesShape(absences, rules, monthStart, monthEnd, now);
    ExpandedEmployees(otherRules, monthStart, monthEnd, now, selected);
    FilterDropsRejected(Filter(absences, p), Filter(others, p), expanded, otherExpanded, q);
  }
}

=== FILE: clock.dfy ===
/** Local wall-clock time and calendar days, with fixed 24-hour days.

    A calendar date is an integer day number; day 0 is 1970-01-01, a Thursday.
    An instant is a date with a wall-clock hour and minute, the fields the
    source reads back with `getHours` and moves with `setHours`/`setDate`.
    Time zones and daylight-saving shifts are not represented. */
module Clock {

  /** A time of day as entered in a form field, "HH:MM". */
  datatype TimeOfDay = TimeOfDay(hour: int, minute: int) {
    predicate Valid() {
      0 <= hour < 24 && 0 <= minute < 60
    }

    /** Minutes since midnight. */
    function Minutes(): int {
      hour * 60 + minute
    }
  }

  /** A local instant with minute resolution. */
  datatype Instant = Instant(date: int, hour: int, minute: int) {
    predicate Valid() {
      0 <= hour < 24 && 0 <= minute < 60
    }

    /** Minutes since midnight of day 0: the order and the differences the
        source takes between `Date` values. */
    function Minutes(): int {
      date * 1440 + hour * 60 + minute
    }
  }

  /** A date combined with a time of day: `new Date(`${date}T${time}`)`. */
  function At(date: int, time: TimeOfDay): Instant {
    Instant(date, time.hour, time.minute)
  }

  /** The same wall-clock time one day later: `setDate(getDate() + 1)`. */
  function NextDay(t: Instant): (n: Instant)
    ensures n.Minutes() == t.Minutes() + 1440
  {
    Instant(t.date + 1, t.hour, t.minute)
  }

  /** The next whole hour strictly after an instant:
      `setHours(getHours() + 1, 0, 0, 0)`, which rolls over to the next day
      after 23:00. */
  function NextHour(t: Instant): (n: Instant)
    requires t.Valid()
    ensures n.Valid() && n.minute == 0
    ensures n.Minutes() == t.Minutes() - t.minute + 60
  {
    if t.hour == 23 then Instant(t.date + 1, 0, 0) else Instant(t.date, t.hour + 1, 0)
  }

  /** Day of the week, 0 = Sunday .. 6 = Saturday: what `Date.getDay` reads.
      Day 0 is a Thursday (weekday 4). */
  function Weekday(d: int): (w: int)
    ensures 0 <= w < 7
  {
    (d + 4) % 7
  }

  predicate IsWeekend(d: int) {
    Weekday(d) == 0 || Weekday(d) == 6
  }
}

=== FILE: lists.dfy ===
/** Order-preserving filtering of sequences: the `Array.prototype.filter` the
    handlers and the monthly views use. */
module Lists {

  /** The elements of `s` satisfying `p`, in their original order. */
  function Filter<T(!new)>(s: seq<T>, p: T -> bool): (r: seq<T>)
    ensures |r| <= |s|
    ensures forall x :: x in r <==> x in s && p(x)
  {
    if |s| == 0 then []
    else (if p(s[0]) then [s[0]] else []) + Filter(s[1..], p)
  }

  /** Filtering a concatenation filters each part. */
  lemma {:induction false} FilterAppend<T(!new)>(a: seq<T>, b: seq<T>, p: T -> bool)
    ensures Filter(a + b, p) == Filter(a, p) + Filter(b, p)
    decreases |a|
  {
    if |a| == 0 {
      assert a + b == b;
    } else {
      assert (a + b)[0] == a[0];
      assert (a + b)[1..] == a[1..] + b;
      FilterAppend(a[1..], b, p);
      var head := if p(a[0]) then [a[0]] else [];
      assert Filter(a + b, p) == head + (Filter(a[1..], p) + Filter(b, p));
      assert head + (Filter(a[1..], p) + Filter(b, p)) == (head + Filter(a[1..], p)) + Filter(b, p);
    }
  }

  /** Filtering a concatenation of four parts filters each part. */
  lemma FilterAppend4<T(!new)>(a: seq<T>, b: seq<T>, c: seq<T>, d: seq<T>, p: T -> bool)
    ensures Filter(a + b + c + d, p) == Filter(a, p) + Filter(b, p) + Filter(c, p) + Filter(d, p)
  {
    FilterAppend(a + b + c, d, p);
    FilterAppend(a + b, c, p);
    FilterAppend(a, b, p);
  }

  /** Parts whose elements all fail the filter drop out of a concatenation. */
  lemma FilterDropsRejected<T(!new)>(a: seq<T>, b: seq<T>, c: seq<T>, d: seq<T>, p: T -> bool)
    requires forall x :: x in b ==> !p(x)
    requires forall x :: x in d ==> !p(x)
    ensures Filter(a + b + c + d, p) == Filter(a + c, p)
  {
    FilterAppend4(a, b, c, d, p);
    FilterAppend(a, c, p);
    FilterNone(b, p);
    FilterNone(d, p);
    var fa, fc := Filter(a, p), Filter(c, p);
    calc {
      Filter(a + b + c + d, p);
      fa + [] + fc + [];
      { assert fa + [] == fa; }
      fa + fc + [];
      { assert fa + fc + [] == fa + fc; }
      Filter(a + c, p);
    }
  }

  /** A filter every element passes changes nothing. */
  lemma {:induction false} FilterAll<T(!new)>(s: seq<T>, p: T -> bool)
    requires forall x :: x in s ==> p(x)
    ensures Filter(s, p) == s
    decreases |s|
  {
    if |s| > 0 {
      FilterAll(s[1..], p);
    }
  }

  /** A filter no element passes leaves nothing. */
  lemma FilterNone<T(!new)>(s: seq<T>, p: T -> bool)
    requires forall x :: x in s ==> !p(x)
    ensures Filter(s, p) == []
  {
    if Filter(s, p) != [] {
      assert Filter(s, p)[0] in Filter(s, p);
    }
  }

  /** A relation that holds between every earlier and later element still
      holds after filtering, since filtering keeps the order. */
  lemma {:induction false} FilterKeepsPairwise<T(!new)>(s: seq<T>, p: T -> bool, rel: (T, T) -> bool)
    requires forall i, j :: 0 <= i < j < |s| ==> rel(s[i], s[j])
    ensures forall i, j :: 0 <= i < j < |Filter(s, p)| ==> rel(Filter(s, p)[i], Filter(s, p)[j])
    decreases |s|
  {
    if |s| > 0 {
      var rest := s[1..];
      assert forall i, j :: 0 <= i < j < |rest| ==> rel(rest[i], rest[j]) by {
        forall i, j | 0 <= i < j < |rest|
          ensures rel(rest[i], rest[j])
        {
          assert rest[i] == s[i + 1] && rest[j] == s[j + 1];
        }
      }
      FilterKeepsPairwise(rest, p, rel);
      var r := Filter(s, p);
      var fr := Filter(rest, p);
      if p(s[0]) {
        assert r == [s[0]] + fr;
        forall i, j | 0 <= i < j < |r|
          ensures rel(r[i], r[j])
        {
          assert r[j] == fr[j - 1];
          if i == 0 {
            assert fr[j - 1] in fr;
            var k :| 0 <= k < |rest| && rest[k] == r[j];
            assert rest[k] == s[k + 1];
            assert rel(s[0], s[k + 1]);
          } else {
            assert r[i] == fr[i - 1];
            assert rel(fr[i - 1], fr[j - 1]);
          }
        }
      } else {
        assert r == fr;
      }
    }
  }
}

=== FILE: month_totals.dfy ===
/** Month totals of script.js: the time entries of a month (`updateMonthlyRecap`)
    and their field-wise sum (`calculateMonthTotals`). */
module MonthTotals {
  import opened Clock
  import opened Lists
  import opened ShiftHours

  /** A saved time entry: the form's fields with the calculator's result
      spread into it. */
  datatype TimeEntry = TimeEntry(
    id: int,
    employee: string,
    date: int,
    startTime: TimeOfDay,
    endTime: TimeOfDay,
    breakMinutes: int,
    hours: HoursResult)

  /** An entry whose hours are what the calculator gives for its fields, as
      every entry the form saves is. */
  predicate Consistent(e: TimeEntry) {
    && e.startTime.Valid() && e.endTime.Valid()
    && e.hours == CalculateHours(e.date, e.startTime, e.endTime, e.breakMinutes)
  }

  datatype Totals = Totals(normalHours: real, nightHours: real, compHours: real, totalHours: real)

  /** The four hour fields as the totals read them, `entry.field || 0`: an
      entry saved from an invalid shift has no hour fields, and one saved from
      the zero-length shift with a negative break holds NaN; both read as 0. */
  function Fields(e: TimeEntry): Breakdown {
    match e.hours
    case Computed(hours) => hours
    case _ => Breakdown(0.0, 0.0, 0.0, 0.0)
  }

  function AddEntry(acc: Totals, e: TimeEntry): Totals {
    var f := Fields(e);
    Totals(acc.normalHours + f.normalHours, acc.nightHours + f.nightHours,
           acc.compHours + f.compensationHours, acc.totalHours + f.totalHours)
  }

  function Plus(a: Totals, b: Totals): Totals {
    Totals(a.normalHours + b.normalHours, a.nightHours + b.nightHours,
           a.compHours + b.compHours, a.totalHours + b.totalHours)
  }

  /** Entries whose hours were computed. */
  function IsComputed(): TimeEntry -> bool {
    (e: TimeEntry) => e.hours.Computed?
  }

  /** The field-wise sum of the entries, added in list order from zero. */
  function MonthTotals(entries: seq<TimeEntry>): Totals {
    if |entries| == 0 then Totals(0.0, 0.0, 0.0, 0.0)
    else AddEntry(MonthTotals(entries[..|entries| - 1]), entries[|entries| - 1])
  }

  /** A single entry's totals are the four fields it contributes. */
  lemma MonthTotalsSingle(e: TimeEntry)
    ensures MonthTotals([e]) == Totals(Fields(e).normalHours, Fields(e).nightHours,
                                       Fields(e).compensationHours, Fields(e).totalHours)
  {
    assert [e][..0] == [];
  }

  /** The totals of two lists of entries one after the other add up. */
  lemma {:induction false} MonthTotalsAppend(a: seq<TimeEntry>, b: seq<TimeEntry>)
    ensures MonthTotals(a + b) == Plus(MonthTotals(a), MonthTotals(b))
    decreases |b|
  {
    if |b| == 0 {
      assert a + b == a;
    } else {
      var init := b[..|b| - 1];
      assert (a + b)[..|a + b| - 1] == a + init;
      assert (a + b)[|a + b| - 1] == b[|b| - 1];
      MonthTotalsAppend(a, init);
    }
  }

  /** Only computed entries contribute: dropping the entries without a
      breakdown leaves the totals unchanged. */
  lemma {:induction false} OnlyComputedCount(entries: seq<TimeEntry>)
    ensures MonthTotals(entries) == MonthTotals(Filter(entries, IsComputed()))
    decreases |entries|
  {
    var p := IsComputed();
    if |entries| > 0 {
      var init := entries[..|entries| - 1];
      var last := entries[|entries| - 1];
      assert entries == init + [last];
      OnlyComputedCount(init);
      FilterAppend(init, [last], p);
      var kept := Filter(init, p);
      assert Filter([last], p) == if p(last) then [last] else [] by {
        assert [last][1..] == [];
      }
      if p(last) {
        assert (kept + [last])[..|kept|] == kept;
      } else {
        assert kept + [] == kept;
      }
    }
  }

  /** For entries saved from the form, the month's total is the sum of its
      normal, night and bonus hours. */
  lemma {:induction false} TotalsAddUp(entries: seq<TimeEntry>)
    requires forall i :: 0 <= i < |entries| ==> Consistent(entries[i])
    ensures var t := MonthTotals(entries);
      t.totalHours == t.normalHours + t.nightHours + t.compHours
    decreases |entries|
  {
    if |entries| > 0 {
      var last := entries[|entries| - 1];
      TotalsAddUp(entries[..|entries| - 1]);
      if last.hours.Computed? {
        TotalIsSum(last.date, last.startTime, last.endTime, last.breakMinutes);
      }
    }
  }

  /** For entries saved from the form with non-negative breaks, no total is
      negative and the bonus is at most a tenth of the worked hours. */
  lemma {:induction false} TotalsNonNegative(entries: seq<TimeEntry>)
    requires forall i :: 0 <= i < |entries| ==> Consistent(entries[i]) && entries[i].breakMinutes >= 0
    ensures var t := MonthTotals(entries);
      && 0.0 <= t.normalHours && 0.0 <= t.nightHours && 0.0 <= t.compHours && 0.0 <= t.totalHours
      && t.compHours <= 0.1 * (t.normalHours + t.nightHours)
    decreases |entries|
  {
    if |entries| > 0 {
      var last := entries[|entries| - 1];
      TotalsNonNegative(entries[..|entries| - 1]);
      if last.hours.Computed? {
        BreakScaling(last.date, last.startTime, last.endTime, last.breakMinutes);
      }
    }
  }

  /** The entries of the month dated from its first to its last day, for the
      selected employee or, when none is selected, for everybody. */
  function InMonthFor(monthStart: int, monthEnd: int, selected: string): TimeEntry -> bool {
    (e: TimeEntry) => monthStart <= e.date <= monthEnd && (selected == "" || e.employee == selected)
  }

  function MonthEntries(entries: seq<TimeEntry>, monthStart: int, monthEnd: int, selected: string): seq<TimeEntry> {
    Filter(entries, InMonthFor(monthStart, monthEnd, selected))
  }

  /** An entry is in the month's list exactly when it is stored, dated inside
      the month and, with an employee selected, that employee's. */
  lemma MonthEntriesMembership(entries: seq<TimeEntry>, monthStart: int, monthEnd: int, selected: string, e: TimeEntry)
    ensures e in MonthEntries(entries, monthStart, monthEnd, selected)
      <==> e in entries && monthStart <= e.date <= monthEnd && (selected == "" || e.employee == selected)
  {
  }

  /** Entries outside the month or of other employees leave the month's
      totals for the selected employee unchanged. */
  lemma MonthTotalsIgnoreOthers(entries: seq<TimeEntry>, others: seq<TimeEntry>, monthStart: int, monthEnd: int, selected: string)
    requires forall e :: e in others ==>
      e.date < monthStart || monthEnd < e.date || (selected != "" && e.employee != selected)
    ensures MonthTotals(MonthEntries(entries + others, monthStart, monthEnd, selected))
      == MonthTotals(MonthEntries(entries, monthStart, monthEnd, selected))
  {
    var p := InMonthFor(monthStart, monthEnd, selected);
    FilterAppend(entries, others, p);
    FilterNone(others, p);
    assert Filter(entries, p) + [] == Filter(entries, p);
  }
}

=== FILE: shift_hours.dfy ===
/** The shift hour calculator of script.js (`calculateHours`): a shift given as
    a date, a start and an end time of day and a break in minutes becomes normal,
    night and compensation-bonus hours.

    Hour quantities are exact reals; the source computes them in IEEE-754
    doubles and agrees with this model only up to rounding. */
module ShiftHours {
  import opened Clock

  /** Night window: from the night start hour 22 up to the night end hour 3,
      wrapping midnight. */
  predicate IsNightHour(h: int) {
    h >= 22 || h < 3
  }

  /** Compensation window: from the compensation start hour 22 up to the
      compensation end hour 5, wrapping midnight; it contains the night
      window. */
  predicate IsCompensationHour(h: int) {
    h >= 22 || h < 5
  }

  /** Raw time accumulated by the walk, in minutes, before the break is
      applied. The source accumulates hours; a step of `m` minutes here is its
      `timeToAdd` of `m / 60` hours. */
  datatype Buckets = Buckets(normal: int, night: int, compensation: int)

  /** What the calculator returns: the breakdown, the `null` of an invalid
      shift, or the all-NaN record produced when the pause ratio divides by a
      zero counted duration (reachable only with a negative break). */
  datatype HoursResult =
    | Invalid
    | Computed(hours: Breakdown)
    | Undefined

  /** `compensationHours` holds the bonus (0.1 per raw compensation hour), not
      the raw compensation hours. */
  datatype Breakdown = Breakdown(
    normalHours: real,
    nightHours: real,
    compensationHours: real,
    totalHours: real)

  function Hours(minutes: int): real {
    minutes as real / 60.0
  }

  /** One step of the walk adds at most one hour, and no more than what is left
      of the shift: `Math.min(1, (end - currentTime) / hour)`. */
  function StepMinutes(t: Instant, end: Instant): (m: int)
    ensures m <= 60
    ensures t.Minutes() < end.Minutes() ==> 0 < m <= end.Minutes() - t.Minutes()
    ensures t.Minutes() < end.Minutes() ==> m == 60 || m == end.Minutes() - t.Minutes()
  {
    if end.Minutes() - t.Minutes() < 60 then end.Minutes() - t.Minutes() else 60
  }

  /** The hour-by-hour walk from `t` to `end`: each step is classified by the
      wall-clock hour it starts in, adds `StepMinutes` and then jumps to the
      next whole hour. */
  function Walk(t: Instant, end: Instant): (b: Buckets)
    requires t.Valid()
    ensures 0 <= b.normal && 0 <= b.night
    ensures b.night <= b.compensation <= (b.normal + b.night)
    ensures (b.normal + b.night) > 0 <==> t.Minutes() < end.Minutes()
    decreases end.Minutes() - t.Minutes()
  {
    if t.Minutes() >= end.Minutes() then Buckets(0, 0, 0)
    else
      var x := StepMinutes(t, end);
      var rest := Walk(NextHour(t), end);
      Buckets(
        if IsNightHour(t.hour) then rest.normal else rest.normal + x,
        if IsNightHour(t.hour) then rest.night + x else rest.night,
        if IsCompensationHour(t.hour) then rest.compensation + x else rest.compensation)
  }

  /** The while loop of the source, accumulating the three buckets in order. */
  method AccumulateHours(start: Instant, end: Instant) returns (normal: int, night: int, compensation: int)
    requires start.Valid()
    ensures Buckets(normal, night, compensation) == Walk(start, end)
  {
    normal, night, compensation := 0, 0, 0;
    var current := start;
    while current.Minutes() < end.Minutes()
      invariant current.Valid()
      invariant Walk(start, end) == Buckets(
        normal + Walk(current, end).normal,
        night + Walk(current, end).night,
        compensation + Walk(current, end).compensation)
      decreases end.Minutes() - current.Minutes()
    {
      var hour := current.hour;
      var timeToAdd := StepMinutes(current, end);
      if IsNightHour(hour) {
        night := night + timeToAdd;
      } else {
        normal := normal + timeToAdd;
      }
      if IsCompensationHour(hour) {
        compensation := compensation + timeToAdd;
      }
      current := NextHour(current);
    }
  }

  /** The end instant: on the shift's date, or on the next day when it would
      otherwise come before the start. */
  function EndInstant(date: int, startTime: TimeOfDay, endTime: TimeOfDay): Instant {
    var start := At(date, startTime);
    var end := At(date, endTime);
    if end.Minutes() < start.Minutes() then NextDay(end) else end
  }

  /** Length of a shift in minutes once the end has been rolled over to the
      next day when needed: always less than a day, and zero exactly when the
      two times are equal. */
  function ShiftMinutes(startTime: TimeOfDay, endTime: TimeOfDay): (d: int)
    requires startTime.Valid() && endTime.Valid()
    ensures 0 <= d < 1440
    ensures d == 0 <==> startTime == endTime
  {
    MinutesIdentifyTime(startTime, endTime);
    var s := startTime.Minutes();
    var e := endTime.Minutes();
    if e < s then e + 1440 - s else e - s
  }

  /** Minutes since midnight identify a valid time of day. */
  lemma MinutesIdentifyTime(a: TimeOfDay, b: TimeOfDay)
    requires a.Valid() && b.Valid()
    ensures a.Minutes() == b.Minutes() <==> a == b
  {
    if a.hour < b.hour {
      assert a.hour * 60 + 60 <= b.hour * 60;
    } else if b.hour < a.hour {
      assert b.hour * 60 + 60 <= a.hour * 60;
    }
  }

  /** Share of the counted time taken by the break: the source's
      `breakMinutes / (60 * (normalHours + nightHours))`. */
  function PauseRatio(breakMinutes: int, countedMinutes: int): real
    requires countedMinutes != 0
  {
    breakMinutes as real / countedMinutes as real
  }

  /** Hours scaled by the kept share `keep`, with the compensation hours
      turned into the bonus at the source's compensation rate of 0.1 (six
      minutes per hour); the total is the sum of the three fields. */
  function Scale(normal: real, night: real, compensation: real, keep: real): Breakdown {
    var bonus := 0.1 * (compensation * keep);
    Breakdown(normal * keep, night * keep, bonus, normal * keep + night * keep + bonus)
  }

  /** Removes the break proportionally from the three raw buckets. */
  function ApplyBreak(raw: Buckets, breakMinutes: int): Breakdown
    requires raw.normal + raw.night != 0
  {
    Scale(Hours(raw.normal), Hours(raw.night), Hours(raw.compensation),
          1.0 - PauseRatio(breakMinutes, raw.normal + raw.night))
  }

  function CalculateHours(date: int, startTime: TimeOfDay, endTime: TimeOfDay, breakMinutes: int): (r: HoursResult)
    requires startTime.Valid() && endTime.Valid()
    ensures r.Invalid? <==> ShiftMinutes(startTime, endTime) <= breakMinutes
  {
    var start := At(date, startTime);
    var end := EndInstant(date, startTime, endTime);
    assert end.Minutes() - start.Minutes() == ShiftMinutes(startTime, endTime);
    var totalMinutes := end.Minutes() - start.Minutes() - breakMinutes;
    if totalMinutes <= 0 then Invalid
    else
      var raw := Walk(start, end);
      if raw.normal + raw.night == 0 then Undefined
      else Computed(ApplyBreak(raw, breakMinutes))
  }

  /** The pause ratio divides by zero only for a zero-length shift with a
      negative break; any other accepted shift gets a breakdown. */
  lemma UndefinedOnlyForNegativeBreak(date: int, startTime: TimeOfDay, endTime: TimeOfDay, breakMinutes: int)
    requires startTime.Valid() && endTime.Valid()
    ensures CalculateHours(date, startTime, endTime, breakMinutes).Undefined?
      <==> breakMinutes < 0 && startTime == endTime
  {
    var start := At(date, startTime);
    var end := EndInstant(date, startTime, endTime);
    assert end.Minutes() - start.Minutes() == ShiftMinutes(startTime, endTime);
  }

  // ---------------------------------------------------------------------
  // Rollover

  /** The end instant keeps the end time's wall clock and moves to the next
      day exactly when the end time is earlier than the start time, so it lies
      less than a day after the start. */
  lemma Rollover(date: int, startTime: TimeOfDay, endTime: TimeOfDay)
    requires startTime.Valid() && endTime.Valid()
    ensures var end := EndInstant(date, startTime, endTime);
      && end.Valid()
      && end.hour == endTime.hour && end.minute == endTime.minute
      && (end.date == date + 1 <==> endTime.Minutes() < startTime.Minutes())
      && (end.date == date <==> startTime.Minutes() <= endTime.Minutes())
      && end.Minutes() - At(date, startTime).Minutes() == ShiftMinutes(startTime, endTime)
  {
  }

  // ---------------------------------------------------------------------
  // Step size

  /** From a whole hour on, the walk counts the duration exactly. */
  lemma {:induction false} AlignedWalkIsExact(t: Instant, end: Instant)
    requires t.Valid() && t.minute == 0
    requires t.Minutes() <= end.Minutes()
    ensures Walk(t, end).normal + Walk(t, end).night == end.Minutes() - t.Minutes()
    decreases end.Minutes() - t.Minutes()
  {
    if t.Minutes() < end.Minutes() {
      var n := NextHour(t);
      if n.Minutes() < end.Minutes() {
        AlignedWalkIsExact(n, end);
      }
    }
  }

  /** Exactly what the walk counts: the duration, plus an overcount when the
      first step starts off the hour and the shift runs past that hour. The
      first step adds up to a full hour but the walk resumes at the next whole
      hour, so the overlap is counted twice: all of the minutes past the hour
      at which the shift starts, once it lasts an hour or more. */
  lemma CountedMinutes(t: Instant, end: Instant)
    requires t.Valid()
    requires t.Minutes() < end.Minutes()
    ensures var d := end.Minutes() - t.Minutes();
      var toNextHour := 60 - t.minute;
      && Walk(t, end).normal + Walk(t, end).night == (if d <= toNextHour then d else d + StepMinutes(t, end) - toNextHour)
      && (d >= 60 ==> Walk(t, end).normal + Walk(t, end).night == d + t.minute)
      && d <= Walk(t, end).normal + Walk(t, end).night < d + 60
      && (t.minute == 0 ==> Walk(t, end).normal + Walk(t, end).night == d)
  {
    var n := NextHour(t);
    if n.Minutes() < end.Minutes() {
      AlignedWalkIsExact(n, end);
    }
  }

  // ---------------------------------------------------------------------
  // Step classification

  /** A walk whose steps all start between 05:00 and 21:59 of one day counts
      nothing as night or compensation. */
  lemma {:induction false} DaytimeWalk(t: Instant, end: Instant)
    requires t.Valid() && 5 <= t.hour
    requires end.Minutes() - t.Minutes() <= 22 * 60 - (t.hour * 60 + t.minute)
    ensures Walk(t, end).night == 0
    ensures Walk(t, end).compensation == 0
    decreases end.Minutes() - t.Minutes()
  {
    if t.Minutes() < end.Minutes() {
      var n := NextHour(t);
      if n.Minutes() < end.Minutes() {
        DaytimeWalk(n, end);
      }
    }
  }

  // ---------------------------------------------------------------------
  // Break scaling, bonus and total

  /** The algebra of the scaling step: with `0 <= b < c` the kept share
      `1 - b/c` lies in (0, 1] and scaling `c` minutes by it leaves `c - b`. */
  lemma ScaleArithmetic(b: int, c: int)
    requires 0 <= b < c
    ensures 0.0 <= PauseRatio(b, c) < 1.0
    ensures Hours(c) * (1.0 - PauseRatio(b, c)) == Hours(c) - b as real / 60.0
  {
    var r := PauseRatio(b, c);
    assert r * c as real == b as real;
  }

  /** Scaling by a share in (0, 1] keeps the buckets non-negative and in
      order, so the bonus lies between a tenth of the scaled night hours and
      a tenth of the scaled counted hours. */
  lemma ScaleBounds(normal: real, night: real, compensation: real, keep: real)
    requires 0.0 <= normal && 0.0 <= night && night <= compensation <= normal + night
    requires 0.0 < keep <= 1.0
    ensures var b := Scale(normal, night, compensation, keep);
      && 0.0 <= b.normalHours && 0.0 <= b.nightHours
      && 0.0 <= b.compensationHours && 0.0 <= b.totalHours
      && 0.1 * b.nightHours <= b.compensationHours <= 0.1 * (b.normalHours + b.nightHours)
      && b.normalHours + b.nightHours == (normal + night) * keep
  {
    assert night * keep <= compensation * keep <= (normal + night) * keep;
  }

  /** Without night and compensation hours only the normal hours remain. */
  lemma ScaleDaytime(normal: real, keep: real)
    ensures Scale(normal, 0.0, 0.0, keep) == Breakdown(normal * keep, 0.0, 0.0, normal * keep)
  {
  }

  /** Buckets the walk can produce, with a break shorter than the counted
      time: the situation in which the source applies the break. */
  predicate ScalableBuckets(raw: Buckets, breakMinutes: int) {
    && 0 <= raw.normal && 0 <= raw.night
    && raw.night <= raw.compensation <= raw.normal + raw.night
    && 0 <= breakMinutes < raw.normal + raw.night
  }

  /** After the break is applied every field is non-negative, the bonus lies
      between a tenth of the night hours and a tenth of the counted hours,
      exactly the break comes off the counted hours, the bonus is a tenth of
      the compensation hours scaled by the kept share, and the total is the
      sum of the three fields. */
  lemma ApplyBreakBounds(raw: Buckets, breakMinutes: int)
    requires ScalableBuckets(raw, breakMinutes)
    ensures var b := ApplyBreak(raw, breakMinutes);
      var keep := 1.0 - PauseRatio(breakMinutes, raw.normal + raw.night);
      && 0.0 < keep <= 1.0
      && 0.0 <= b.normalHours && 0.0 <= b.nightHours
      && 0.0 <= b.compensationHours && 0.0 <= b.totalHours
      && 0.1 * b.nightHours <= b.compensationHours <= 0.1 * (b.normalHours + b.nightHours)
      && b.normalHours + b.nightHours == Hours(raw.normal + raw.night) - breakMinutes as real / 60.0
      && b.compensationHours == 0.1 * (Hours(raw.compensation) * keep)
      && b.totalHours == b.normalHours + b.nightHours + b.compensationHours
  {
    var c := raw.normal + raw.night;
    ScaleArithmetic(breakMinutes, c);
    var keep := 1.0 - PauseRatio(breakMinutes, c);
    assert Hours(raw.normal) + Hours(raw.night) == Hours(c);
    ScaleBounds(Hours(raw.normal), Hours(raw.night), Hours(raw.compensation), keep);
  }

  /** A valid shift with a non-negative break always reaches the scaling
      step, with a break shorter than the counted time. */
  lemma ValidShiftIsScaled(date: int, startTime: TimeOfDay, endTime: TimeOfDay, breakMinutes: int)
    requires startTime.Valid() && endTime.Valid()
    requires breakMinutes >= 0
    requires !CalculateHours(date, startTime, endTime, breakMinutes).Invalid?
    ensures var raw := Walk(At(date, startTime), EndInstant(date, startTime, endTime));
      && ScalableBuckets(raw, breakMinutes)
      && CalculateHours(date, startTime, endTime, breakMinutes) == Computed(ApplyBreak(raw, breakMinutes))
  {
    var start := At(date, startTime);
    var end := EndInstant(date, startTime, endTime);
    Rollover(date, startTime, endTime);
    CountedMinutes(start, end);
  }

  /** For a valid shift and a non-negative break, the pause ratio is defined
      and below one, every output is non-negative, the break comes off the
      counted hours, the bonus is a tenth of the scaled compensation hours and
      lies between a tenth of the night hours and a tenth of all counted
      hours, and the total is the sum of the three fields. */
  lemma BreakScaling(date: int, startTime: TimeOfDay, endTime: TimeOfDay, breakMinutes: int)
    requires startTime.Valid() && endTime.Valid()
    requires breakMinutes >= 0
    requires !CalculateHours(date, startTime, endTime, breakMinutes).Invalid?
    ensures var raw := Walk(At(date, startTime), EndInstant(date, startTime, endTime));
      && raw.normal + raw.night > breakMinutes
      && 0.0 <= PauseRatio(breakMinutes, raw.normal + raw.night) < 1.0
      && var r := CalculateHours(date, startTime, endTime, breakMinutes);
      && r.Computed?
      && 0.0 <= r.hours.normalHours && 0.0 <= r.hours.nightHours
      && 0.0 <= r.hours.compensationHours && 0.0 <= r.hours.totalHours
      && r.hours.normalHours + r.hours.nightHours
         == Hours(raw.normal + raw.night) - breakMinutes as real / 60.0
      && r.hours.compensationHours
         == 0.1 * (Hours(raw.compensation) * (1.0 - PauseRatio(breakMinutes, raw.normal + raw.night)))
      && r.hours.totalHours == r.hours.normalHours + r.hours.nightHours + r.hours.compensationHours
      && 0.1 * r.hours.nightHours <= r.hours.compensationHours
      && r.hours.compensationHours <= 0.1 * (r.hours.normalHours + r.hours.nightHours)
  {
    ValidShiftIsScaled(date, startTime, endTime, breakMinutes);
    var raw := Walk(At(date, startTime), EndInstant(date, startTime, endTime));
    ApplyBreakBounds(raw, breakMinutes);
  }

  /** A breakdown is the break applied to the walk from the start instant to
      the (rolled-over) end instant. */
  lemma ComputedFromWalk(date: int, startTime: TimeOfDay, endTime: TimeOfDay, breakMinutes: int)
    requires startTime.Valid() && endTime.Valid()
    requires CalculateHours(date, startTime, endTime, breakMinutes).Computed?
    ensures var raw := Walk(At(date, startTime), EndInstant(date, startTime, endTime));
      && raw.normal + raw.night != 0
      && CalculateHours(date, startTime, endTime, breakMinutes) == Computed(ApplyBreak(raw, breakMinutes))
  {
  }

  /** Whatever the break, a breakdown's total is the sum of its three
      fields. */
  lemma TotalIsSum(date: int, startTime: TimeOfDay, endTime: TimeOfDay, breakMinutes: int)
    requires startTime.Valid() && endTime.Valid()
    requires CalculateHours(date, startTime, endTime, breakMinutes).Computed?
    ensures var b := CalculateHours(date, startTime, endTime, breakMinutes).hours;
      b.totalHours == b.normalHours + b.nightHours + b.compensationHours
  {
    ComputedFromWalk(date, startTime, endTime, breakMinutes);
  }

  /** A same-day shift inside 05:00-22:00 earns no night hours and no bonus;
      started on the hour without a break it counts exactly its duration. */
  lemma DaytimeShift(date: int, startTime: TimeOfDay, endTime: TimeOfDay, breakMinutes: int)
    requires startTime.Valid() && endTime.Valid()
    requires 5 * 60 <= startTime.Minutes() < endTime.Minutes() <= 22 * 60
    requires CalculateHours(date, startTime, endTime, breakMinutes).Computed?
    ensures var b := CalculateHours(date, startTime, endTime, breakMinutes).hours;
      && b.nightHours == 0.0
      && b.compensationHours == 0.0
      && b.totalHours == b.normalHours
      && ((breakMinutes == 0 && startTime.minute == 0)
            ==> b.normalHours == Hours(endTime.Minutes() - startTime.Minutes()))
  {
    var start := At(date, startTime);
    var end := EndInstant(date, startTime, endTime);
    DaytimeWalk(start, end);
    ComputedFromWalk(date, startTime, endTime, breakMinutes);
    var raw := Walk(start, end);
    var keep := 1.0 - PauseRatio(breakMinutes, raw.normal + raw.night);
    assert Hours(raw.night) == 0.0 && Hours(raw.compensation) == 0.0;
    ScaleDaytime(Hours(raw.normal), keep);
    if breakMinutes == 0 && startTime.minute == 0 {
      AlignedWalkIsExact(start, end);
      assert keep == 1.0;
    }
  }

  // ---------------------------------------------------------------------
  // Worked examples

  /** 23:00-01:00 without a break: two night hours and a 0.2 bonus. */
  lemma OvernightExample(date: int)
    ensures CalculateHours(date, TimeOfDay(23, 0), TimeOfDay(1, 0), 0)
      == Computed(Breakdown(0.0, 2.0, 0.2, 2.2))
  {
    var start := Instant(date, 23, 0);
    var end := Instant(date + 1, 1, 0);
    assert Walk(Instant(date + 1, 0, 0), end) == Buckets(0, 60, 60);
    assert Walk(start, end) == Buckets(0, 120, 120);
  }

  /** 08:00-12:00 with a 30-minute break: 3.5 normal hours. */
  lemma BreakExample(date: int)
    ensures CalculateHours(date, TimeOfDay(8, 0), TimeOfDay(12, 0), 30)
      == Computed(Breakdown(3.5, 0.0, 0.0, 3.5))
  {
    BreakExampleWalk(date);
    BreakExampleScaling();
  }

  /** The walk of 08:00-12:00 counts four normal hours. */
  lemma BreakExampleWalk(date: int)
    ensures CalculateHours(date, TimeOfDay(8, 0), TimeOfDay(12, 0), 30)
      == Computed(ApplyBreak(Buckets(240, 0, 0), 30))
  {
    var end := Instant(date, 12, 0);
    assert Walk(Instant(date, 11, 0), end) == Buckets(60, 0, 0);
    assert Walk(Instant(date, 10, 0), end) == Buckets(120, 0, 0);
    assert Walk(Instant(date, 9, 0), end) == Buckets(180, 0, 0);
    assert Walk(Instant(date, 8, 0), end) == Buckets(240, 0, 0);
  }

  /** A 30-minute break keeps seven eighths of four hours. */
  lemma BreakExampleScaling()
    ensures ApplyBreak(Buckets(240, 0, 0), 30) == Breakdown(3.5, 0.0, 0.0, 3.5)
  {
    assert PauseRatio(30, 240) == 0.125;
    assert Hours(240) == 4.0 && Hours(0) == 0.0;
    ScaleDaytime(4.0, 0.875);
  }

  /** 21:30-23:00: the first half hour is counted as a full normal hour. */
  lemma OffHourExample(date: int)
    ensures CalculateHours(date, TimeOfDay(21, 30), TimeOfDay(23, 0), 0)
      == Computed(Breakdown(1.0, 1.0, 0.1, 2.1))
  {
    var end := Instant(date, 23, 0);
    assert Walk(Instant(date, 22, 0), end) == Buckets(0, 60, 60);
    assert Walk(Instant(date, 21, 30), end) == Buckets(60, 60, 60);
  }

  /** Equal start and end times with no break are rejected. */
  lemma EqualTimesRejected(date: int, time: TimeOfDay)
    requires time.Valid()
    ensures CalculateHours(date, time, time, 0) == Invalid
  {
  }
}

=== FILE: state.dfy ===
/** The list updates performed by the form handlers of script.js, as pure
    transitions: adding and deleting employees, adding weekly recurring
    absences and saving a time entry. Storage, the DOM and the dialogs are not
    part of the model; the confirmation answer and the clock reading are
    parameters. */
module AppState {
  import opened Clock
  import opened Lists
  import opened ShiftHours
  import opened Absences
  import opened MonthTotals

  /** Why a handler returns without changing anything (each is an alert in
      the source, or the answer "cancel" to the confirmation). */
  datatype Error =
    | NoEmployeeSelected
    | EmptyName
    | DuplicateEmployee
    | DuplicateRecurringRule
    | MissingField
    | Cancelled

  datatype Result<T> = Ok(value: T) | Err(error: Error)

  datatype Option<T> = None | Some(value: T)

  /** The four stored lists. */
  datatype Store = Store(
    employees: seq<string>,
    entries: seq<TimeEntry>,
    absences: seq<Absence>,
    rules: seq<RecurringRule>)

  // ---------------------------------------------------------------------
  // Employee names

  /** The characters `String.prototype.trim` removes: white space (tab,
      vertical tab, form feed, space, no-break space, byte-order mark and the
      other space separators) and line terminators. */
  predicate IsSpace(c: char) {
    || c == '\t' || c == '\n' || c == '\U{000B}' || c == '\U{000C}' || c == '\r'
    || c == ' ' || c == '\U{00A0}' || c == '\U{1680}'
    || ('\U{2000}' <= c <= '\U{200A}')
    || c == '\U{2028}' || c == '\U{2029}' || c == '\U{202F}' || c == '\U{205F}'
    || c == '\U{3000}' || c == '\U{FEFF}'
  }

  /** `s` without its leading white space. */
  function DropLeading(s: string): (r: string)
    ensures |r| <= |s| && r == s[|s| - |r|..]
    ensures forall k :: 0 <= k < |s| - |r| ==> IsSpace(s[k])
    ensures r == [] || !IsSpace(r[0])
  {
    if |s| > 0 && IsSpace(s[0]) then
      var t := DropLeading(s[1..]);
      assert s[1..][|s| - 1 - |t|..] == s[|s| - |t|..];
      assert forall k :: 1 <= k < |s| - |t| ==> s[k] == s[1..][k - 1];
      t
    else s
  }

  /** `s` without its trailing white space. */
  function DropTrailing(s: string): (r: string)
    ensures |r| <= |s| && r == s[..|r|]
    ensures forall k :: |r| <= k < |s| ==> IsSpace(s[k])
    ensures r == [] || !IsSpace(r[|r| - 1])
  {
    if |s| > 0 && IsSpace(s[|s| - 1]) then
      var t := DropTrailing(s[..|s| - 1]);
      assert s[..|s| - 1][..|t|] == s[..|t|];
      assert forall k :: |t| <= k < |s| - 1 ==> s[k] == s[..|s| - 1][k];
      t
    else s
  }

  /** `String.prototype.trim`: the part of `s` between its leading and
      trailing white space. */
  function Trim(s: string): string {
    DropTrailing(DropLeading(s))
  }

  /** `r` is `s` with the white space before position `i` and after
      `r` removed. */
  predicate TrimmedAt(s: string, r: string, i: int) {
    && 0 <= i <= |s| - |r|
    && r == s[i..i + |r|]
    && (forall k :: 0 <= k < i ==> IsSpace(s[k]))
    && (forall k :: i + |r| <= k < |s| ==> IsSpace(s[k]))
  }

  /** Trimming removes only white space, from both ends, and leaves a string
      that neither starts nor ends with white space. */
  lemma TrimShape(s: string)
    ensures var r := Trim(s);
      && (r == [] || (!IsSpace(r[0]) && !IsSpace(r[|r| - 1])))
      && exists i :: TrimmedAt(s, r, i)
  {
    var d := DropLeading(s);
    var i := |s| - |d|;
    TrimmedAtOffset(s, d, DropTrailing(d), i);
  }

  /** Trailing white space dropped from the suffix `d` of `s` starting at `i`
      is white space of `s` after the kept part. */
  lemma TrimmedAtOffset(s: string, d: string, r: string, i: int)
    requires 0 <= i <= |s| && d == s[i..]
    requires forall k :: 0 <= k < i ==> IsSpace(s[k])
    requires |r| <= |d| && r == d[..|r|]
    requires forall k :: |r| <= k < |d| ==> IsSpace(d[k])
    ensures TrimmedAt(s, r, i)
  {
    assert s[i..][..|r|] == s[i..i + |r|];
    forall k | i + |r| <= k < |s|
      ensures IsSpace(s[k])
    {
      assert s[k] == d[k - i];
    }
  }

  /** Trimming twice trims no further. */
  lemma TrimIdempotent(s: string)
    ensures Trim(Trim(s)) == Trim(s)
  {
    var r := Trim(s);
    TrimShape(s);
    assert DropLeading(r) == r;
    assert DropTrailing(r) == r;
  }

  /** The upper-case letters of Basic Latin and Latin-1 that `toLowerCase`
      folds: A-Z and U+00C0-U+00DE except the multiplication sign U+00D7. */
  predicate IsUpper(c: char) {
    'A' <= c <= 'Z' || ('\U{00C0}' <= c <= '\U{00DE}' && c != '\U{00D7}')
  }

  /** `toLowerCase` on one character: an upper-case letter moves 32 code
      points up to its lower-case form. */
  function LowerChar(c: char): char {
    if IsUpper(c) then (c as int + 32) as char else c
  }

  /** `toLowerCase`: no upper-case letter is left, each upper-case letter
      becomes the letter 32 code points above it, and every other character
      is kept. */
  function Lower(s: string): (r: string)
    ensures |r| == |s|
    ensures forall k :: 0 <= k < |r| ==> !IsUpper(r[k])
    ensures forall k :: 0 <= k < |s| && !IsUpper(s[k]) ==> r[k] == s[k]
    ensures forall k :: 0 <= k < |s| && IsUpper(s[k]) ==> r[k] as int == s[k] as int + 32
  {
    seq(|s|, k requires 0 <= k < |s| => LowerChar(s[k]))
  }

  /** Lower-casing twice lowers no further. */
  lemma LowerIdempotent(s: string)
    ensures Lower(Lower(s)) == Lower(s)
  {
    var r := Lower(s);
    assert forall k :: 0 <= k < |r| ==> Lower(r)[k] == r[k];
  }

  /** Two names that differ only in letter case. */
  predicate SameName(a: string, b: string) {
    Lower(a) == Lower(b)
  }

  /** No two employees share a name up to letter case. */
  predicate NamesUnique(employees: seq<string>) {
    forall i, j :: 0 <= i < j < |employees| ==> !SameName(employees[i], employees[j])
  }

  /** `handleAddEmployee`: the trimmed name is appended unless it is empty or
      some employee already has it up to letter case. */
  function AddEmployee(employees: seq<string>, input: string): (r: Result<seq<string>>)
    ensures r.Ok? <==> Trim(input) != "" && forall i :: 0 <= i < |employees| ==> !SameName(employees[i], Trim(input))
    ensures r.Ok? ==> r.value == employees + [Trim(input)]
    ensures r == Err(EmptyName) <==> Trim(input) == ""
  {
    var name := Trim(input);
    if name == "" then Err(EmptyName)
    else if exists i | 0 <= i < |employees| :: SameName(employees[i], name) then Err(DuplicateEmployee)
    else Ok(employees + [name])
  }

  /** Adding an employee keeps the names unique up to letter case. */
  lemma AddEmployeeKeepsNamesUnique(employees: seq<string>, input: string)
    requires NamesUnique(employees)
    requires AddEmployee(employees, input).Ok?
    ensures NamesUnique(AddEmployee(employees, input).value)
  {
    var r := AddEmployee(employees, input).value;
    forall i, j | 0 <= i < j < |r|
      ensures !SameName(r[i], r[j])
    {
      if j == |employees| {
        assert r[j] == Trim(input);
        assert r[i] == employees[i];
      } else {
        assert r[i] == employees[i] && r[j] == employees[j];
      }
    }
  }

  /** Names that differ only in case and surrounding white space are refused
      once one of them is stored. */
  lemma AddEmployeeRefusesCaseVariant()
    ensures AddEmployee(["Alice"], " ALICE ") == Err(DuplicateEmployee)
  {
    TrimExample();
    LowerExample();
    assert SameName(["Alice"][0], Trim(" ALICE "));
  }

  lemma TrimExample()
    ensures Trim(" ALICE ") == "ALICE"
  {
    LeadingExample();
    TrailingExample();
  }

  lemma LeadingExample()
    ensures DropLeading(" ALICE ") == "ALICE "
  {
    var s := " ALICE ";
    assert IsSpace(s[0]);
    assert s[1..] == "ALICE ";
    assert !IsSpace('A');
  }

  lemma TrailingExample()
    ensures DropTrailing("ALICE ") == "ALICE"
  {
    var d := "ALICE ";
    assert IsSpace(d[5]);
    assert d[..5] == "ALICE";
    assert !IsSpace('E');
  }

  lemma LowerExample()
    ensures Lower("ALICE") == Lower("Alice")
  {
    assert LowerChar('A') == 'a' && LowerChar('L') == 'l' && LowerChar('I') == 'i';
    assert LowerChar('C') == 'c' && LowerChar('E') == 'e';
    assert LowerChar('l') == 'l' && LowerChar('i') == 'i' && LowerChar('c') == 'c' && LowerChar('e') == 'e';
  }

  // ---------------------------------------------------------------------
  // Deleting an employee

  function NotNamed(name: string): string -> bool {
    (e: string) => e != name
  }

  function EntryNotOf(name: string): TimeEntry -> bool {
    (e: TimeEntry) => e.employee != name
  }

  function AbsenceNotOf(name: string): Absence -> bool {
    (a: Absence) => a.employee != name
  }

  function RuleNotOf(name: string): RecurringRule -> bool {
    (rule: RecurringRule) => rule.employee != name
  }

  /** `handleDeleteEmployee`: once confirmed, the employee and all of their
      time entries, absences and recurring rules are removed. */
  function DeleteEmployee(store: Store, employee: string, confirmed: bool): (r: Result<Store>)
    ensures r.Ok? <==> employee != "" && confirmed
    ensures r.Ok? ==> |r.value.entries| <= |store.entries| && |r.value.absences| <= |store.absences|
  {
    if employee == "" then Err(NoEmployeeSelected)
    else if !confirmed then Err(Cancelled)
    else Ok(Store(
      Filter(store.employees, NotNamed(employee)),
      Filter(store.entries, EntryNotOf(employee)),
      Filter(store.absences, AbsenceNotOf(employee)),
      Filter(store.rules, RuleNotOf(employee))))
  }

  /** After a deletion nothing refers to the employee any more, and every
      other employee, entry, absence and rule is still there. */
  lemma DeleteEmployeeCascades(store: Store, employee: string)
    requires employee != ""
    ensures var s := DeleteEmployee(store, employee, true).value;
      && employee !in s.employees
      && (forall e :: e in s.entries ==> e.employee != employee)
      && (forall a :: a in s.absences ==> a.employee != employee)
      && (forall rule :: rule in s.rules ==> rule.employee != employee)
      && (forall n :: n in store.employees && n != employee ==> n in s.employees)
      && (forall e :: e in store.entries && e.employee != employee ==> e in s.entries)
      && (forall a :: a in store.absences && a.employee != employee ==> a in s.absences)
      && (forall rule :: rule in store.rules && rule.employee != employee ==> rule in s.rules)
      && (forall n :: n in s.employees ==> n in store.employees)
      && (forall e :: e in s.entries ==> e in store.entries)
      && (forall a :: a in s.absences ==> a in store.absences)
      && (forall rule :: rule in s.rules ==> rule in store.rules)
  {
  }

  /** No two recurring rules of one employee share a weekday. */
  predicate RulesUnique(rules: seq<RecurringRule>) {
    forall i, j :: 0 <= i < j < |rules| ==>
      !(rules[i].employee == rules[j].employee && rules[i].dayOfWeek == rules[j].dayOfWeek)
  }

  function DistinctRules(): (RecurringRule, RecurringRule) -> bool {
    (x: RecurringRule, y: RecurringRule) => !(x.employee == y.employee && x.dayOfWeek == y.dayOfWeek)
  }

  function DistinctNames(): (string, string) -> bool {
    (x: string, y: string) => !SameName(x, y)
  }

  /** Deleting an employee keeps the names and the recurring rules unique. */
  lemma DeleteEmployeeKeepsInvariants(store: Store, employee: string, confirmed: bool)
    requires NamesUnique(store.employees) && RulesUnique(store.rules)
    requires DeleteEmployee(store, employee, confirmed).Ok?
    ensures NamesUnique(DeleteEmployee(store, employee, confirmed).value.employees)
    ensures RulesUnique(DeleteEmployee(store, employee, confirmed).value.rules)
  {
    FilterKeepsPairwise(store.employees, NotNamed(employee), DistinctNames());
    FilterKeepsPairwise(store.rules, RuleNotOf(employee), DistinctRules());
  }

  // ---------------------------------------------------------------------
  // Recurring absences

  /** `handleAddRecurringAbsence`: a rule for the selected employee and
      weekday is appended, with the clock reading as its id, unless that
      employee already has a rule for that weekday. */
  function AddRecurring(rules: seq<RecurringRule>, employee: string, dayOfWeek: int, absenceType: AbsenceType, now: int): (r: Result<seq<RecurringRule>>)
    ensures r == Err(DuplicateRecurringRule) <==> (employee != "" &&
      exists i :: 0 <= i < |rules| && rules[i].employee == employee && rules[i].dayOfWeek == dayOfWeek)
    ensures r.Ok? ==> r.value == rules + [RecurringRule(now, employee, dayOfWeek, absenceType)]
    ensures r.Ok? <==> (employee != "" &&
      forall i :: 0 <= i < |rules| ==> !(rules[i].employee == employee && rules[i].dayOfWeek == dayOfWeek))
  {
    if employee == "" then Err(NoEmployeeSelected)
    else if exists i | 0 <= i < |rules| :: rules[i].employee == employee && rules[i].dayOfWeek == dayOfWeek then
      Err(DuplicateRecurringRule)
    else Ok(rules + [RecurringRule(now, employee, dayOfWeek, absenceType)])
  }

  /** Adding a recurring rule keeps each employee's weekdays distinct. */
  lemma AddRecurringKeepsRulesUnique(rules: seq<RecurringRule>, employee: string, dayOfWeek: int, absenceType: AbsenceType, now: int)
    requires RulesUnique(rules)
    requires AddRecurring(rules, employee, dayOfWeek, absenceType, now).Ok?
    ensures RulesUnique(AddRecurring(rules, employee, dayOfWeek, absenceType, now).value)
  {
    var r := AddRecurring(rules, employee, dayOfWeek, absenceType, now).value;
    forall i, j | 0 <= i < j < |r|
      ensures !(r[i].employee == r[j].employee && r[i].dayOfWeek == r[j].dayOfWeek)
    {
      assert r[i] == rules[i];
      if j < |rules| {
        assert r[j] == rules[j];
      }
    }
  }

  // ---------------------------------------------------------------------
  // Saving a time entry

  /** The entry form; an empty date or time field is `None`. */
  datatype EntryForm = EntryForm(
    employee: string,
    date: Option<int>,
    startTime: Option<TimeOfDay>,
    endTime: Option<TimeOfDay>,
    breakMinutes: int)

  /** Time fields as a time input delivers them. */
  predicate WellFormed(form: EntryForm) {
    && (form.startTime.Some? ==> form.startTime.value.Valid())
    && (form.endTime.Some? ==> form.endTime.value.Valid())
  }

  /** Every entry carrying `id` replaced by `entry`, in place. */
  function ReplaceById(entries: seq<TimeEntry>, id: int, entry: TimeEntry): seq<TimeEntry> {
    seq(|entries|, i requires 0 <= i < |entries| => if entries[i].id == id then entry else entries[i])
  }

  /** With distinct ids, replacing the entry with a stored id changes exactly
      that position, keeps the length and the ids distinct and leaves the
      stored entry's place holding the new one; an id that is no longer
      stored changes nothing. */
  lemma ReplaceByIdChangesOne(entries: seq<TimeEntry>, id: int, entry: TimeEntry)
    requires IdsUnique(entries)
    requires entry.id == id
    ensures var r := ReplaceById(entries, id, entry);
      && |r| == |entries|
      && (forall k :: 0 <= k < |entries| && entries[k].id == id ==>
            (r[k] == entry && forall m :: 0 <= m < |entries| && m != k ==> r[m] == entries[m]))
      && ((forall k :: 0 <= k < |entries| ==> entries[k].id != id) ==> r == entries)
      && IdsUnique(r)
  {
    var r := ReplaceById(entries, id, entry);
    forall i, j | 0 <= i < j < |r|
      ensures r[i].id != r[j].id
    {
      assert entries[i].id != entries[j].id;
    }
  }

  /** No two entries share an id. */
  predicate IdsUnique(entries: seq<TimeEntry>) {
    forall i, j :: 0 <= i < j < |entries| ==> entries[i].id != entries[j].id
  }

  /** Every form field filled in. */
  predicate Complete(form: EntryForm) {
    form.date.Some? && form.startTime.Some? && form.endTime.Some?
  }

  /** The entry saved from a filled-in form: its fields, with the
      calculator's result for them, under the given id. */
  function FormEntry(form: EntryForm, id: int): TimeEntry
    requires WellFormed(form) && Complete(form)
  {
    var date, startTime, endTime := form.date.value, form.startTime.value, form.endTime.value;
    TimeEntry(id, form.employee, date, startTime, endTime, form.breakMinutes,
              CalculateHours(date, startTime, endTime, form.breakMinutes))
  }

  /** `handleFormSubmit`: builds the entry from the form and the calculator.
      When `pending` is non-zero, every entry with that id is replaced by the
      new entry under that id; otherwise the entry is appended with the clock
      reading as its id. `pending` is the source's `currentEntryId`, where null
      and 0 both mean none. Only `deleteEntry` sets it, and only a confirmed
      deletion clears it, so a non-zero `pending` is the id of an entry whose
      deletion was not confirmed. */
  function SubmitEntry(entries: seq<TimeEntry>, form: EntryForm, pending: int, now: int): (r: Result<seq<TimeEntry>>)
    requires WellFormed(form)
    ensures r == Err(NoEmployeeSelected) <==> form.employee == ""
    ensures r == Err(MissingField) <==> form.employee != "" && !Complete(form)
    ensures r.Ok? <==> form.employee != "" && Complete(form)
    ensures r.Ok? && pending == 0 ==>
      && |r.value| == |entries| + 1 && r.value[..|entries|] == entries
      && r.value[|entries|] == FormEntry(form, now)
    ensures r.Ok? && pending != 0 ==>
      && |r.value| == |entries|
      && (forall k :: 0 <= k < |entries| && entries[k].id == pending ==> r.value[k] == FormEntry(form, pending))
      && (forall k :: 0 <= k < |entries| && entries[k].id != pending ==> r.value[k] == entries[k])
  {
    if form.employee == "" then Err(NoEmployeeSelected)
    else if !Complete(form) then Err(MissingField)
    else if pending != 0 then Ok(ReplaceById(entries, pending, FormEntry(form, pending)))
    else Ok(entries + [FormEntry(form, now)])
  }

  /** Saving keeps every stored entry consistent with the calculator, and the
      ids distinct when the clock reading is not already an id. */
  lemma SubmitEntryKeepsInvariants(entries: seq<TimeEntry>, form: EntryForm, pending: int, now: int)
    requires WellFormed(form)
    requires forall i :: 0 <= i < |entries| ==> Consistent(entries[i])
    requires IdsUnique(entries)
    requires forall i :: 0 <= i < |entries| ==> entries[i].id != now
    requires SubmitEntry(entries, form, pending, now).Ok?
    ensures var r := SubmitEntry(entries, form, pending, now).value;
      && (forall i :: 0 <= i < |r| ==> Consistent(r[i]))
      && IdsUnique(r)
  {
    var r := SubmitEntry(entries, form, pending, now).value;
    var entry := FormEntry(form, if pending != 0 then pending else now);
    assert Consistent(entry);
    if pending != 0 {
      ReplaceByIdChangesOne(entries, pending, entry);
    } else {
      assert r == entries + [entry];
      forall i, j | 0 <= i < j < |r|
        ensures r[i].id != r[j].id
      {
        assert r[i] == entries[i];
        if j < |entries| {
          assert r[j] == entries[j];
        }
      }
    }
  }
}

=== FILE: working_days.dfy ===
/** The working-day counter of script.js (`calculateWorkingDays`): the number
    of days in an inclusive date range that fall on Monday to Friday. */
module DayCount {
  import opened Clock

  /** Working days from `start` to `end`, both included, counted one day at a
      time from `start`; an empty range (`end < start`) counts nothing. */
  function WorkingDays(start: int, end: int): (n: nat)
    ensures n <= if end < start then 0 else end - start + 1
    decreases end - start
  {
    if end < start then 0
    else (if IsWeekend(start) then 0 else 1) + WorkingDays(start + 1, end)
  }

  /** The source's loop: walks the dates from `start` to `end` and counts those
      whose weekday is neither Sunday (0) nor Saturday (6). */
  method CountWorkingDays(start: int, end: int) returns (days: nat)
    ensures days == |Weekdays(start, end)|
  {
    days := 0;
    var current := start;
    while current <= end
      invariant start <= current || end < start
      invariant current <= end + 1 || end < start
      invariant days + WorkingDays(current, end) == WorkingDays(start, end)
      decreases end - current
    {
      if Weekday(current) != 0 && Weekday(current) != 6 {
        days := days + 1;
      }
      current := current + 1;
    }
    CountsWeekdays(start, end);
  }

  /** The days from `start` to `end` that are not on a weekend: the
      independent definition the counter is proved equal to. */
  ghost function Weekdays(start: int, end: int): set<int> {
    set d | start <= d <= end && !IsWeekend(d)
  }

  /** The counter counts exactly the weekdays of the range. */
  lemma {:induction false} CountsWeekdays(start: int, end: int)
    ensures WorkingDays(start, end) == |Weekdays(start, end)|
    decreases end - start
  {
    if end < start {
      assert Weekdays(start, end) == {};
    } else {
      CountsWeekdays(start + 1, end);
      var first := if IsWeekend(start) then {} else {start};
      assert Weekdays(start, end) == first + Weekdays(start + 1, end);
      assert start !in Weekdays(start + 1, end);
    }
  }

  /** Splitting the range at any day adds up the two parts. */
  lemma {:induction false} SplitRange(start: int, middle: int, end: int)
    requires start <= middle + 1 && middle <= end
    ensures WorkingDays(start, end) == WorkingDays(start, middle) + WorkingDays(middle + 1, end)
    decreases middle - start
  {
    if start <= middle {
      SplitRange(start + 1, middle, end);
    }
  }

  /** The next day's weekday follows Saturday with Sunday. */
  lemma NextWeekday(d: int)
    ensures Weekday(d + 1) == if Weekday(d) == 6 then 0 else Weekday(d) + 1
  {
    var q := (d + 4) / 7;
    assert d + 4 == 7 * q + Weekday(d);
    if Weekday(d) == 6 {
      assert d + 5 == 7 * (q + 1);
    } else {
      assert d + 5 == 7 * q + (Weekday(d) + 1);
    }
  }

  /** Any seven consecutive days hold exactly five working days. */
  lemma WeekHasFiveWorkingDays(start: int)
    ensures WorkingDays(start, start + 6) == 5
  {
    NextWeekday(start);
    NextWeekday(start + 1);
    NextWeekday(start + 2);
    NextWeekday(start + 3);
    NextWeekday(start + 4);
    NextWeekday(start + 5);
    assert WorkingDays(start + 7, start + 6) == 0;
    assert WorkingDays(start + 6, start + 6) == (if IsWeekend(start + 6) then 0 else 1);
    assert WorkingDays(start + 5, start + 6)
      == (if IsWeekend(start + 5) then 0 else 1) + WorkingDays(start + 6, start + 6);
    assert WorkingDays(start + 4, start + 6)
      == (if IsWeekend(start + 4) then 0 else 1) + WorkingDays(start + 5, start + 6);
    assert WorkingDays(start + 3, start + 6)
      == (if IsWeekend(start + 3) then 0 else 1) + WorkingDays(start + 4, start + 6);
    assert WorkingDays(start + 2, start + 6)
      == (if IsWeekend(start + 2) then 0 else 1) + WorkingDays(start + 3, start + 6);
    assert WorkingDays(start + 1, start + 6)
      == (if IsWeekend(start + 1) then 0 else 1) + WorkingDays(start + 2, start + 6);
  }

  /** A run of whole weeks holds five working days per week. */
  lemma {:induction false} WholeWeeks(start: int, weeks: nat)
    ensures WorkingDays(start, start + 7 * weeks - 1) == 5 * weeks
    decreases weeks
  {
    if weeks > 0 {
      WeekHasFiveWorkingDays(start);
      WholeWeeks(start + 7, weeks - 1);
      SplitRange(start, start + 6, start + 7 * weeks - 1);
    }
  }

  /** Monday 2024-01-01 (day 19723) to Friday 2024-01-05 is five working
      days; the following Saturday and Sunday count none. */
  lemma WorkingWeekExample()
    ensures WorkingDays(19723, 19727) == 5
    ensures WorkingDays(19728, 19729) == 0
  {
    assert Weekday(19723) == 1;
    NextWeekday(19723);
    NextWeekday(19724);
    NextWeekday(19725);
    NextWeekday(19726);
    NextWeekday(19727);
    NextWeekday(19728);
    assert WorkingDays(19729, 19729) == 0;
    assert WorkingDays(19727, 19727) == 1;
    assert WorkingDays(19726, 19727) == 2;
    assert WorkingDays(19725, 19727) == 3;
    assert WorkingDays(19724, 19727) == 4;
  }
}
